=== FILE: README.md ===
# Music bot download pipeline in Dafny

This project models the search-and-download pipeline of a Telegram music bot
(`FULL_MUSIC_BOT.py`). It proves properties of that model. The pipeline is:

1. A user sends free text. The bot registers them, searches the provider for
   up to five tracks and caches the list for that user. It then shows one
   button per track, carrying `download:<index>`.
2. The user presses a button. The bot parses the index and looks the track up
   in the cache. It then checks the daily quota: free users get five downloads.
3. The bot runs the extractor and finds the produced `.mp3` under the
   sanitised title, then sends it.
4. Only after a successful send does the bot bump the in-memory counter. It
   then runs the counter UPDATE and the history INSERT on the `users` and
   `downloads` tables.

The modules follow that flow:

- `Wrappers`: `Option`.
- `Text`: prefixes, decimal numerals, Python's `str()`/`int()` on integers, `split`/`join`.
- `Duration`: `_format_duration`, with a clock parser as its inverse.
- `Naming`: title sanitisation and the artifact lookup of `download_audio`.
- `Search`: `search_music` from the provider's answer onwards.
- `Keyboard`: the results keyboard and the parsing of callback data.
- `Quota`: the quota gate, the counter UPDATE and the "available today" figure.
- `Bot`: `handle_message` (search branch) and `handle_callback` as pure transitions over a `State`.
  The state holds the result cache, the `users` rows, the `downloads` rows and the session counter.
- `Pipeline`: properties across several messages and presses, over any sequence of events.
- `Messages`: the language toggle, `get_text`, and splitting a long reply into 4000-character messages.

Things the model receives as parameters instead of computing:

- The provider's search answer (`Option<Response>`).
- What the extractor left in the temporary directory (`Extraction`).
- Whether sending the audio raised (`Sending`).
- The database server's current date (`today`).
- Python's `str.isalnum` (`isAlnum: char -> bool`).

Behaviours of the code the model keeps, although a bot like this might be
expected to do otherwise:

- Titles are not truncated.
- No collision token is added: two titles that sanitise alike share an artifact name.
- A download is not retried.
- Quota is not reserved before the download and there is no per-user lock.
- A negative callback index selects from the end of the cached list.
- The stored daily counter is compared with the limit without looking at its date (see Findings).

## Model

| member | source | states |
|---|---|---|
| Duration.Truncate | FULL_MUSIC_BOT.py:253 | `int()` of a float truncates toward zero: the result brackets the value from below for non-negative values and from above for negative ones |
| Duration.FormatDuration | FULL_MUSIC_BOT.py:250-257 | the text is `"Unknown"` exactly when the duration is missing or zero |
| Duration.FormatSeconds | FULL_MUSIC_BOT.py:253-257 | the divmod text of a whole number of seconds: two colon-separated fields exactly on [0, 3600), three otherwise (including every negative length) |
| Duration.FormatDurationFields | FULL_MUSIC_BOT.py:250-257 | below an hour the text is `M:SS`, its first field the minutes as `str()` prints them (no padding) and under 60; otherwise three fields, the first the non-zero hour count as `str()` prints it, then two two-digit fields under 60 |
| Duration.DurationRoundTrip | FULL_MUSIC_BOT.py:250-257 | reading the rendered clock back gives `int(seconds)`; `"Unknown"` reads as nothing |
| Duration.ShortClockRoundTrip | FULL_MUSIC_BOT.py:253-257 | a length from 0 up to an hour renders as `M:SS` that reads back to it |
| Duration.LongClockRoundTrip | FULL_MUSIC_BOT.py:253-257 | a length of an hour or more, or a negative one, renders as `H:MM:SS` that reads back to it |
| Duration.ClockArithmetic | FULL_MUSIC_BOT.py:253-254 | the two `divmod` steps decompose the total as hours·3600 + minutes·60 + seconds, with zero hours exactly for 0 ≤ total < 3600 |
| Naming.KeepAllowed | FULL_MUSIC_BOT.py:261 | the filter keeps only alphanumerics, space, hyphen and underscore, and keeps them in order |
| Naming.KeepAllowedAppend | FULL_MUSIC_BOT.py:261 | the filter works character by character: filtering a concatenation concatenates the filtered parts |
| Naming.KeepAllowedFixes | FULL_MUSIC_BOT.py:261 | a text of allowed characters passes the filter unchanged |
| Naming.Strip | FULL_MUSIC_BOT.py:261 | `strip()` removes spaces from the two ends only (the result is a slice of the input with only spaces outside it) and leaves no outer space; an already stripped text is left alone |
| Naming.TrimIsUnique | FULL_MUSIC_BOT.py:261 | only one slice of a text has only spaces outside it and no outer space, so `Strip`'s contract determines its result |
| Naming.Sanitize | FULL_MUSIC_BOT.py:261 | the file name is the allow-list filter's output with only its outer spaces removed; it uses only allowed characters, has no outer space and is a subsequence of the title |
| Naming.SanitizeIdempotent | FULL_MUSIC_BOT.py:261 | sanitising a sanitised name changes nothing |
| Naming.SanitizeFixedPoints | FULL_MUSIC_BOT.py:261 | a name is left unchanged exactly when it is allow-listed and has no outer space |
| Naming.DistinctTitlesShareName | FULL_MUSIC_BOT.py:261-264 | two different titles can map to the same artifact name, since no disambiguating token is added |
| Naming.FirstArtifactIndex | FULL_MUSIC_BOT.py:273-275 | the scan finds the first entry with the name as prefix and `.mp3` as suffix, or reports that none exists |
| Naming.LocateArtifact | FULL_MUSIC_BOT.py:269-277 | the exact `<name>.mp3` wins when present; otherwise the first matching entry in listing order is returned; nothing exactly when no entry matches |
| Naming.LocatePicksFirstMatch | FULL_MUSIC_BOT.py:273-275 | without the exact file, the first matching entry in listing order is returned |
| Naming.EmptyNameMatchesAnyAudio | FULL_MUSIC_BOT.py:261-275 | a title that sanitises to nothing is matched by any `.mp3` in the directory |
| Naming.DownloadAudio | FULL_MUSIC_BOT.py:259-280 | an extractor error gives None; after a run the result is None exactly when no listed entry has the sanitised name as prefix and `.mp3` as suffix; the exact expected file wins when listed, and otherwise the first matching entry in listing order is returned |
| Search.ToCandidate | FULL_MUSIC_BOT.py:236-243 | missing keys take the defaults `"Unknown"`, `""` and `0`; the duration text is `_format_duration`'s text of the provider's duration, so `"Unknown"` exactly when it is missing or zero |
| Search.CandidateDurationReadsBack | FULL_MUSIC_BOT.py:236 | the duration text of a candidate reads back to the provider's whole seconds, and to nothing when the duration is missing or zero |
| Search.SlicePrefix | FULL_MUSIC_BOT.py:235 | Python's `[:n]`: a prefix of length min(n, len) for n ≥ 0, dropping −n items from the end otherwise |
| Search.Assemble | FULL_MUSIC_BOT.py:234-243 | one candidate per truthy entry, never more than the entries |
| Search.AssembleKeepsPosition | FULL_MUSIC_BOT.py:234-243 | the truthy entry at position i becomes the candidate after as many candidates as truthy entries precede it |
| Search.AssemblePreservesOrder | FULL_MUSIC_BOT.py:234-243 | truthy entries keep their relative order among the candidates |
| Search.SearchMusic | FULL_MUSIC_BOT.py:223-248 | no answer or no `entries` gives no results; at most `max_results`; each truthy entry of the window lands in order |
| Text.NatToString | FULL_MUSIC_BOT.py:398 | `str()` of a natural number is a non-empty digit run, with a leading zero only for zero and one digit exactly below ten |
| Text.IntToString | FULL_MUSIC_BOT.py:256 | `str()` of an integer: an optional minus sign and digits with no redundant leading zero (never `-0`), which `int()` reads back as the same integer; together these fix the text uniquely |
| Text.Pad2 | FULL_MUSIC_BOT.py:256 | `:02d` gives digits reading back to the number, exactly two of them below 100 |
| Text.ParseInt | FULL_MUSIC_BOT.py:1338 | `int()` reads a digit run as its value, `-` followed by digits as the negated value and `+` followed by digits as the value, and accepts nothing but an optional sign followed by digits |
| Text.NatToStringRoundTrip | FULL_MUSIC_BOT.py:398 | the decimal text of a natural number reads back to it |
| Text.Split | FULL_MUSIC_BOT.py:1338 | `split(":")` yields at least one field, no field contains the separator, and joining the fields gives the input back |
| Text.SplitJoin | FULL_MUSIC_BOT.py:1338 | splitting a join of separator-free fields gives the fields back |
| Keyboard.ShortTitle | FULL_MUSIC_BOT.py:395 | titles of at most 50 characters are kept; longer ones become their first 50 plus `...` |
| Keyboard.ButtonLabel | FULL_MUSIC_BOT.py:395-397 | a button caption is the note symbol and a space, then exactly line 395's shortened title, then the duration text in parentheses; a title of at most 50 characters appears whole |
| Keyboard.DownloadData | FULL_MUSIC_BOT.py:398 | the data `download:i` of button i starts with the download prefix and parses back to index i |
| Keyboard.DownloadFields | FULL_MUSIC_BOT.py:1337-1338 | a `download:` string has a second field, the first field after the prefix |
| Keyboard.ParseCallback | FULL_MUSIC_BOT.py:1337-1338 | a pick or a malformed pick exactly for `download:` data; a pick carries `int()` of the second field, and a malformed pick happens exactly when `int()` rejects it; the back button's data is recognised exactly |
| Keyboard.ResultsKeyboard | FULL_MUSIC_BOT.py:391-404 | one button per result plus the back button; button i carries the label of result i and parses back to index i |
| Quota.Admits | FULL_MUSIC_BOT.py:1352-1357 | no row or premium always passes; as written, a free user passes exactly when the stored counter is below 5; corrected, when today's count is below 5 |
| Quota.StoredGateIgnoresDate | FULL_MUSIC_BOT.py:1352-1357 | the source's gate gives the same answer for the same row on any day |
| Quota.GatesAgreeOnSameDay | FULL_MUSIC_BOT.py:1352-1357 | for a counter written today, the source's and the corrected gate agree |
| Quota.RecordDownload | FULL_MUSIC_BOT.py:1381-1390 | fails exactly on INTEGER overflow; otherwise total +1, today's count +1 (1 on a new day), date set to today, tier unchanged |
| Quota.NewDayRestartsCounter | FULL_MUSIC_BOT.py:1384-1387 | the first download of a new day sets the counter to 1 |
| Quota.RemainingToday | FULL_MUSIC_BOT.py:1087 | the figure shown is negative exactly when the stored counter exceeds the free limit |
| Quota.RemainingMatchesGate | FULL_MUSIC_BOT.py:1087 | for a free user the figure is positive exactly when the gate admits |
| Bot.Lookup | FULL_MUSIC_BOT.py:149-158 | `get_user`: the user's row when there is one, nothing otherwise (a definition, no contract) |
| Bot.RegisterUser | FULL_MUSIC_BOT.py:160-172 | the user has a row afterwards; an existing row keeps its quota columns; a new one takes the defaults; other rows are untouched |
| Bot.IsSearchQuery | FULL_MUSIC_BOT.py:1305 | a text is searched for exactly when it is present, at least two characters long and does not start with `/` (a definition, no contract) |
| Bot.HandleMessage | FULL_MUSIC_BOT.py:1300-1329 | registers the user; short texts and commands search nothing; an empty result keeps the cache; a non-empty result is shown and replaces the user's cached list, and nobody else's |
| Bot.Resolve | FULL_MUSIC_BOT.py:1340-1349 | expired exactly without cached results; out of range exactly at or past the end; negative indices count from the end and raise below −len |
| Bot.StoreVarchar | FULL_MUSIC_BOT.py:132-133 | a value that fits its `VARCHAR` column is stored as it is; a longer one is cut to exactly the width when only spaces are cut off, and is an error otherwise |
| Bot.HistoryInsert | FULL_MUSIC_BOT.py:1392-1395 | one row for the user when both title and duration can be stored, holding the stored values; none otherwise |
| Bot.Deliver | FULL_MUSIC_BOT.py:1375-1397 | the session counter always moves; the row is updated as `RecordDownload` says; the history grows by the INSERT's row only when the UPDATE succeeded, as `HistoryInsert` says; nothing else changes |
| Bot.Fetch | FULL_MUSIC_BOT.py:1351-1411 | refused exactly when the gate refuses; delivered exactly when the gate admits, the artifact is found and the send succeeds; nothing changes unless delivered |
| Bot.HandleCallback | FULL_MUSIC_BOT.py:1333-1417 | a selected track, from a non-negative or a negative in-range index, goes through `Fetch`; expired, wrong-track and limit replies each happen exactly in their case; the handler raises exactly on an unparsable index or one below −len; the menu is shown exactly for the back button, and other data does nothing; nothing changes unless a track is delivered |
| Pipeline.PressRunsFetch | FULL_MUSIC_BOT.py:1337-1351 | a press whose index is inside the cached list goes on to the quota gate with the track at that index |
| Pipeline.ButtonPressRunsFetch | FULL_MUSIC_BOT.py:1337-1351 | the data of button i, pressed while the cached list has an entry i, goes on to the quota gate with that entry |
| Pipeline.AdmittedButtonDelivers | FULL_MUSIC_BOT.py:1351-1390 | that press, admitted, with the artifact found and the send done, delivers entry i and records the download |
| Pipeline.AdmittedPressDelivers | FULL_MUSIC_BOT.py:1351-1390 | such a press, admitted, with the artifact found and the send done, delivers the track and records the download |
| Pipeline.RefusedPress | FULL_MUSIC_BOT.py:1351-1357 | such a press refused by the gate gets the limit reply and changes nothing |
| Pipeline.CachedButtonSelects | FULL_MUSIC_BOT.py:1337-1390 | button i of the keyboard for the cached list selects track i; never expired, out of range or raised; delivered exactly when gate, download and send allow |
| Pipeline.ShownButtonSelectsShownTrack | FULL_MUSIC_BOT.py:1316-1349 | pressing button i after a search selects result i; the reply is never expired, out of range or raised; it is delivered exactly when quota, download and send allow |
| Pipeline.ResolveAfterSearch | FULL_MUSIC_BOT.py:1316-1349 | after a search, selections resolve against that list only, in both directions for out-of-range and raising indices |
| Pipeline.NegativeIndexSelectsLast | FULL_MUSIC_BOT.py:1344-1349 | the data `download:-1` parses to −1 and selects the last cached track |
| Pipeline.AdmittedDeliveryStaysWithinLimit | FULL_MUSIC_BOT.py:1352-1390 | an admitted free user's counter ends at most 5 after the UPDATE, under either gate |
| Pipeline.ApplyKeepsFreeLimit | FULL_MUSIC_BOT.py:1352-1390 | every message or press keeps every free user's counter at most 5 |
| Pipeline.FreeLimitInvariant | FULL_MUSIC_BOT.py:1352-1390 | over any sequence of events, no free user's counter exceeds 5 |
| Pipeline.PremiumGoesPastFreeLimit | FULL_MUSIC_BOT.py:1352-1357 | a premium user counted 5 today is still served, and the figure shown becomes −1 |
| Pipeline.SixthDownloadShowsMinusOne | FULL_MUSIC_BOT.py:1087 | a delivery on top of five downloads today leaves the figure shown at −1 |
| Pipeline.StoredCounterRefuses | FULL_MUSIC_BOT.py:1352-1357 | as written, a free user whose stored counter reached 5 is never served and nothing changes |
| Pipeline.StoredCounterLocksOutForever | FULL_MUSIC_BOT.py:1352-1390 | as written, after any later events on any days such a user's row is unchanged and their next press is refused |
| Pipeline.NewDayReopensCorrectedGate | FULL_MUSIC_BOT.py:1384-1387 | corrected, a free user whose counter is from an earlier day is served and their counter restarts at 1 |
| Pipeline.DayAfterFullDay | FULL_MUSIC_BOT.py:1352-1390 | a free user with five downloads on day 0 pressing on day 1: as written the limit reply, corrected a delivery |
| Pipeline.QuotaLockoutWitness | FULL_MUSIC_BOT.py:1352-1357 | the same for user 7 on a concrete state: the limit reply as written, a delivery corrected |
| Messages.CurrentLanguage | FULL_MUSIC_BOT.py:285-286 | `get_user_language`: the chosen language, Russian when the user chose none (a definition, no contract) |
| Messages.ToggleLanguage | FULL_MUSIC_BOT.py:1167-1170 | English after Russian, Russian after anything else; other users keep their language |
| Messages.ToggleTwiceRestores | FULL_MUSIC_BOT.py:1167-1170 | two presses restore every user's language when it was Russian or English |
| Messages.ToggleGivesKnownLanguage | FULL_MUSIC_BOT.py:1167-1170 | after a press the language is Russian or English |
| Messages.GetText | FULL_MUSIC_BOT.py:335-337 | the user's table is used when it exists, otherwise the Russian one; a key that table has gives its text, a key it lacks comes back unchanged even if another table has it |
| Messages.MissingKeyEchoes | FULL_MUSIC_BOT.py:335-337 | a key no table has comes back unchanged |
| Messages.NoFallbackPerKey | FULL_MUSIC_BOT.py:337 | there is no per-key fallback to Russian: a key missing from the user's existing table comes back as itself |
| Messages.Chunks | FULL_MUSIC_BOT.py:597 | the slices concatenate to the text; all are non-empty, none exceeds the size, and all but the last are full |
| Messages.SplitForSending | FULL_MUSIC_BOT.py:596-601 | the parts concatenate to the reply, each at most 4000 characters and every one but the last exactly 4000; a reply within the limit goes out whole, a longer one in at least two non-empty parts |

## Left out

- The yt-dlp search and extraction calls, ffmpeg post-processing and the file system are inputs, not models. `Extraction` gives the directory listing after the run, and `os.path.exists` is membership in that listing.
- The deletion of the artifact after sending (lines 1401-1405) is file-system I/O, not modelled.
- The SQL connection pool is assumed present. Without one, `get_user` returns nothing (modelled as an absent row) and the UPDATE and INSERT are skipped. The model covers that case only as "no row".
- Telegram replies, message editing and keyboard layout (`adjust(1)`) are not modelled; an `edit_text` failure is assumed not to happen.
- Concurrency: handlers are modelled one event at a time. Interleavings of the awaited calls are not modelled.
- Pipeline.FreeLimitInvariant: holds one event at a time only. aiogram runs handlers concurrently, and the awaits between the gate (line 1352) and the UPDATE (line 1381) let two presses at counter 4 both pass, ending at 6.
- `get_user` turns any failing SELECT into None (lines 157-158), and the gate at line 1353 then admits. Database errors on that SELECT are not modelled, so the model reaches this case only through a missing row.
- Admin commands, premium granting and expiry, menu-button dispatch in `handle_message`, `keep_alive.py` and the health monitor are outside the pipeline.
- Python `int()` also accepts surrounding whitespace, underscores between digits and non-ASCII digits. The model accepts only an optional sign followed by ASCII digits, which covers every string the bot's own buttons produce.
- `str.strip()` removes only spaces in the model. The allow-list filter has already removed every other character Python treats as whitespace.
- A provider entry whose key is present but null is modelled like a missing key. Python would keep `None` for title, uploader and view count, and the duration formatter treats it as falsy either way.
- `daily_downloads` or `total_downloads` being NULL in a row is not modelled; the columns have defaults.
- Duration.Truncate: a float duration is a `real`, which has no NaN or infinity. In the source, `int()` of either raises at line 253, and the `except` at lines 246-248 then turns the whole search into `[]`; the model cannot produce that outcome.
- PostgreSQL's `CURRENT_DATE` is the `today` parameter and calendar dates are integers.
- Quota.PremiumDailyLimit: the constant of line 49 is declared but never consulted, so premium users have no cap in the model either.

## Findings

| source | as written | input that shows it | evidently intended | confidence | as-written member | corrected member |
|---|---|---|---|---|---|---|
| FULL_MUSIC_BOT.py:1352-1357 | The gate compares the stored `daily_downloads` with the limit and ignores `last_download_date`. Only the UPDATE after a successful delivery (lines 1384-1387) resets the counter, and that UPDATE never runs for a refused user. | A free user with `daily_downloads = 5` and `last_download_date` = yesterday presses a result button today. | Count only today's downloads at the gate, so a new day admits the user again. | high, not executed | Pipeline.StoredCounterLocksOutForever | Pipeline.NewDayReopensCorrectedGate |

`Quota.Admits` takes the reading of the counter as a `GatePolicy`. `StoredCounter` is the code as written and `CounterOfToday` is the correction; `Bot.HandleCallback` passes the policy through. `Pipeline.QuotaLockoutWitness` shows both answers on the same concrete state. `Pipeline.FreeLimitInvariant` holds under both readings.

=== FILE: bot.dfy ===
/** The two entry points of the download pipeline as transitions over the
    bot's state: the search branch of `handle_message` (lines 1300-1329) and the
    `download:` branch of `handle_callback` (lines 1337-1417). The provider's
    search answer, the extractor's run, the clock and the outcome of sending
    the audio are inputs of the transitions. */
module Bot {
  import opened Wrappers
  import opened Text
  import opened Search
  import opened Keyboard
  import opened Naming
  import opened Quota

  /** The `max_results` passed at line 1309. */
  const SearchLimit := 5

  /** Column widths of the `downloads` table (lines 132-133). */
  const TitleWidth := 500
  const DurationWidth := 20

  /** One row of the `downloads` table. */
  datatype HistoryRow = HistoryRow(user: UserId, title: string, duration: string)

  /** What the pipeline reads and writes: the in-memory result cache
      `user_search_results` (line 43), the `users` and `downloads` tables, and
      the in-memory counter `user_stats['downloads']` (line 45). */
  datatype State = State(
    results: map<UserId, seq<Candidate>>,
    users: map<UserId, UserRecord>,
    history: seq<HistoryRow>,
    downloads: nat)

  datatype Step<R> = Step(state: State, reply: R)

  /** Nothing about user `u` differs between two maps. */
  predicate SameEntry<V(==)>(m: map<UserId, V>, m': map<UserId, V>, u: UserId) {
    (u in m <==> u in m') && (u in m ==> m[u] == m'[u])
  }

  // ---------------------------------------------------------------------------
  // Messages: registration and search
  // ---------------------------------------------------------------------------

  /** `create_user` as called at line 737: inserts a row with the column
      defaults, or leaves the quota columns of an existing row alone. */
  function RegisterUser(users: map<UserId, UserRecord>, user: UserId): (r: map<UserId, UserRecord>)
    ensures user in r
    ensures user in users ==> r[user] == users[user]
    ensures user !in users ==> r[user] == NewUser
    ensures forall u :: u != user ==> SameEntry(users, r, u)
  {
    if user in users then users else users[user := NewUser]
  }

  /** Line 1305: a text that fell through every menu button is searched for
      only when it is at least two characters long and is not a command. */
  predicate IsSearchQuery(text: Option<string>) {
    text.Some? && |text.value| >= 2 && !StartsWith(text.value, "/")
  }

  datatype QueryReply = UnknownCommand | NothingFound | ShowResults(found: seq<Candidate>)

  /** `handle_message` for a text that is not a menu button: register the user,
      then search and cache the results. `text` is None for a message without
      text; `resp` is what the provider answered. */
  function HandleMessage(st: State, user: UserId, text: Option<string>, resp: Option<Response>): (r: Step<QueryReply>)
    ensures r.state.users == RegisterUser(st.users, user)
    ensures r.state.history == st.history && r.state.downloads == st.downloads
    ensures forall u :: u != user ==> SameEntry(st.results, r.state.results, u)
    ensures !IsSearchQuery(text) ==> r.state.results == st.results && r.reply == UnknownCommand
    ensures IsSearchQuery(text) && SearchMusic(resp, SearchLimit) == [] ==>
              r.state.results == st.results && r.reply == NothingFound
    ensures r.reply.ShowResults? ==>
              && IsSearchQuery(text)
              && r.reply.found == SearchMusic(resp, SearchLimit) && r.reply.found != []
              && user in r.state.results && r.state.results[user] == r.reply.found
    ensures IsSearchQuery(text) && SearchMusic(resp, SearchLimit) != [] ==>
              && r.reply == ShowResults(SearchMusic(resp, SearchLimit))
              && r.state.results == st.results[user := SearchMusic(resp, SearchLimit)]
  {
    var st1 := st.(users := RegisterUser(st.users, user));
    if !IsSearchQuery(text) then Step(st1, UnknownCommand)
    else
      var found := SearchMusic(resp, SearchLimit);
      if found == [] then Step(st1, NothingFound)
      else Step(st1.(results := st1.results[user := found]), ShowResults(found))
  }

  // ---------------------------------------------------------------------------
  // Callbacks: selection, quota, download, delivery
  // ---------------------------------------------------------------------------

  /** The outcome of `answer_audio` (line 1368). */
  datatype Sending = SendFailed | Sent

  datatype Selection = Expired | OutOfRange | IndexRaised | Selected(track: Candidate)

  /** Lines 1340-1349. Only the upper bound is checked: a negative index
      selects from the end as Python indexing does, and one below `-len`
      raises. */
  function Resolve(results: map<UserId, seq<Candidate>>, user: UserId, index: int): (s: Selection)
    ensures s == Expired <==> user !in results
    ensures s == OutOfRange <==> user in results && index >= |results[user]|
    ensures s == IndexRaised <==> user in results && index < -|results[user]|
    ensures s.Selected? ==> user in results && -|results[user]| <= index < |results[user]|
    ensures s.Selected? && index >= 0 ==> s.track == results[user][index]
    ensures s.Selected? && index < 0 ==> s.track == results[user][|results[user]| + index]
  {
    if user !in results then Expired
    else
      var rs := results[user];
      if index >= |rs| then OutOfRange
      else if index >= 0 then Selected(rs[index])
      else if index >= -|rs| then Selected(rs[|rs| + index])
      else IndexRaised
  }

  /** PostgreSQL's assignment to a `VARCHAR(width)` column: a value that fits
      is stored as it is; a longer one is cut to the width when everything
      past the width is spaces, and is an error (None) otherwise. */
  function StoreVarchar(s: string, width: nat): (r: Option<string>)
    ensures |s| <= width ==> r == Some(s)
    ensures r.Some? <==> |s| <= width || forall k :: width <= k < |s| ==> s[k] == ' '
    ensures r.Some? ==> |r.value| <= width && r.value == s[..|r.value|]
    ensures r.Some? && |s| > width ==> |r.value| == width
    ensures r.Some? ==> forall k :: |r.value| <= k < |s| ==> s[k] == ' '
  {
    if |s| <= width then Some(s)
    else if forall k :: width <= k < |s| ==> s[k] == ' ' then Some(s[..width])
    else None
  }

  /** The row the history INSERT of lines 1392-1395 adds, or none when a
      value does not fit its column. */
  function HistoryInsert(user: UserId, track: Candidate): (rows: seq<HistoryRow>)
    ensures |rows| <= 1
    ensures |rows| == 1 <==> StoreVarchar(track.title, TitleWidth).Some? && StoreVarchar(track.duration, DurationWidth).Some?
    ensures |rows| == 1 ==> rows[0].user == user
    ensures |rows| == 1 ==> rows[0].title == StoreVarchar(track.title, TitleWidth).value
    ensures |rows| == 1 ==> rows[0].duration == StoreVarchar(track.duration, DurationWidth).value
  {
    var title := StoreVarchar(track.title, TitleWidth);
    var duration := StoreVarchar(track.duration, DurationWidth);
    if title.Some? && duration.Some? then [HistoryRow(user, title.value, duration.value)] else []
  }

  /** Lines 1375-1397 after a successful send: the session counter always
      moves; the UPDATE and the history INSERT run in one `try` whose errors
      are swallowed, so an UPDATE on a missing row changes nothing, an
      overflowing UPDATE skips the INSERT, and the INSERT fails on a value
      too wide for its column or on a missing user row. */
  function Deliver(st: State, user: UserId, track: Candidate, today: Date): (r: State)
    ensures r.results == st.results && r.downloads == st.downloads + 1
    ensures r.users.Keys == st.users.Keys
    ensures forall u :: u != user ==> SameEntry(st.users, r.users, u)
    ensures user !in st.users ==> r.users == st.users && r.history == st.history
    ensures user in st.users && RecordDownload(st.users[user], today).None? ==>
              r.users == st.users && r.history == st.history
    ensures user in st.users && RecordDownload(st.users[user], today).Some? ==>
              && user in r.users && r.users[user] == RecordDownload(st.users[user], today).value
              && r.history == st.history + HistoryInsert(user, track)
  {
    var st1 := st.(downloads := st.downloads + 1);
    if user !in st.users then st1
    else
      match RecordDownload(st.users[user], today)
      case None => st1
      case Some(rec) => st1.(users := st.users[user := rec], history := st.history + HistoryInsert(user, track))
  }

  datatype CallbackReply =
    | ResultsExpired
    | WrongTrack
    | DailyLimitReached
    | DownloadFailed
    | Delivered(track: Candidate, file: string)
    | HandlerRaised
    | MenuShown
    | NoAction

  /** The user's row as `get_user` returns it. */
  function Lookup(users: map<UserId, UserRecord>, user: UserId): Option<UserRecord> {
    if user in users then Some(users[user]) else None
  }

  /** Lines 1351-1411, once a track is selected: the quota gate, reading the
      counter as `policy` says (`StoredCounter` is the source), then the
      download, then the send. `run` is what the extractor did, `send` whether
      `answer_audio` raised. */
  function Fetch(policy: GatePolicy, isAlnum: char -> bool, st: State, user: UserId,
                 track: Candidate, today: Date, run: Extraction, send: Sending): (r: Step<CallbackReply>)
    ensures r.reply == DailyLimitReached <==> !Admits(policy, Lookup(st.users, user), today)
    ensures r.reply == DailyLimitReached || r.reply == DownloadFailed || r.reply.Delivered?
    ensures !r.reply.Delivered? ==> r.state == st
    ensures r.reply.Delivered? ==>
              && r.reply.track == track
              && r.state == Deliver(st, user, track, today)
              && Admits(policy, Lookup(st.users, user), today)
              && DownloadAudio(isAlnum, track.title, run) == Some(r.reply.file)
              && send.Sent?
    ensures Admits(policy, Lookup(st.users, user), today) && DownloadAudio(isAlnum, track.title, run).Some? && send.Sent? ==>
              r.reply.Delivered?
  {
    if !Admits(policy, Lookup(st.users, user), today) then Step(st, DailyLimitReached)
    else
      var file := DownloadAudio(isAlnum, track.title, run);
      if file.None? || send.SendFailed? then Step(st, DownloadFailed)
      else Step(Deliver(st, user, track, today), Delivered(track, file.value))
  }

  /** `handle_callback` (lines 1333-1417). */
  function HandleCallback(policy: GatePolicy, isAlnum: char -> bool, st: State, user: UserId,
                          data: string, today: Date, run: Extraction, send: Sending): (r: Step<CallbackReply>)
    ensures !r.reply.Delivered? ==> r.state == st
    ensures r.reply == ResultsExpired <==> ParseCallback(data).Pick? && user !in st.results
    ensures r.reply == WrongTrack <==>
              && ParseCallback(data).Pick? && user in st.results
              && ParseCallback(data).index >= |st.results[user]|
    ensures r.reply == DailyLimitReached <==>
              && ParseCallback(data).Pick?
              && Resolve(st.results, user, ParseCallback(data).index).Selected?
              && !Admits(policy, Lookup(st.users, user), today)
    ensures r.reply.Delivered? ==>
              && ParseCallback(data).Pick?
              && Resolve(st.results, user, ParseCallback(data).index) == Selected(r.reply.track)
              && Admits(policy, Lookup(st.users, user), today)
              && DownloadAudio(isAlnum, r.reply.track.title, run) == Some(r.reply.file)
              && send.Sent?
              && r.state == Deliver(st, user, r.reply.track, today)
    ensures ParseCallback(data).Pick? && Resolve(st.results, user, ParseCallback(data).index).Selected? ==>
              r == Fetch(policy, isAlnum, st, user, Resolve(st.results, user, ParseCallback(data).index).track, today, run, send)
    ensures r.reply == HandlerRaised <==>
              || ParseCallback(data).MalformedPick?
              || (ParseCallback(data).Pick? && Resolve(st.results, user, ParseCallback(data).index) == IndexRaised)
    ensures r.reply == MenuShown <==> ParseCallback(data).BackToMenu?
    ensures r.reply == NoAction <==> ParseCallback(data).Ignored?
  {
    var action := ParseCallback(data);
    if action.Ignored? then Step(st, NoAction)
    else if action.BackToMenu? then Step(st, MenuShown)
    else if action.MalformedPick? then Step(st, HandlerRaised)
    else
      var selection := Resolve(st.results, user, action.index);
      if selection.Expired? then Step(st, ResultsExpired)
      else if selection.OutOfRange? then Step(st, WrongTrack)
      else if selection.IndexRaised? then Step(st, HandlerRaised)
      else Fetch(policy, isAlnum, st, user, selection.track, today, run, send)
  }
}

=== FILE: duration.dfy ===
/** `MusicDownloader._format_duration`: a track length in seconds rendered as
    `M:SS` or `H:MM:SS`, or `"Unknown"` when the provider gave nothing usable.
    A small clock parser is the partner definition: reading the rendered
    fields back gives the whole number of seconds the formatter started from. */
module Duration {
  import opened Wrappers
  import opened Text

  /** A numeric value as the search provider reports it: an int or a float. */
  datatype Number = Int(i: int) | Float(x: real)

  /** Python truthiness of the formatter's argument: None, `0` and `0.0` are falsy. */
  predicate IsKnown(d: Option<Number>) {
    match d
    case None => false
    case Some(Int(i)) => i != 0
    case Some(Float(x)) => x != 0.0
  }

  /** Python's `int(n)`: floats are truncated toward zero. */
  function Truncate(n: Number): (i: int)
    ensures n.Int? ==> i == n.i
    ensures n.Float? && n.x >= 0.0 ==> i as real <= n.x < i as real + 1.0
    ensures n.Float? && n.x < 0.0 ==> i as real - 1.0 < n.x <= i as real
  {
    match n
    case Int(i) => i
    case Float(x) => if x >= 0.0 then x.Floor else -((-x).Floor)
  }

  const Unknown := "Unknown"

  /** The formatter. */
  function FormatDuration(d: Option<Number>): (r: string)
    ensures r == Unknown <==> !IsKnown(d)
  {
    if !IsKnown(d) then Unknown
    else
      var r := FormatSeconds(Truncate(d.value));
      assert ':' !in Unknown;
      r
  }

  /** The text of a whole number of seconds. `divmod(s, 60)` in Python floors;
      Dafny's `/` and `%` agree with it because the divisor is positive, so
      negative lengths come out as Python prints them (`-5` becomes
      `-1:59:55`). */
  function FormatSeconds(total: int): (r: string)
    ensures ':' in r
    ensures 0 <= total < 3600 <==> |Split(r, ':')| == 2
    ensures !(0 <= total < 3600) <==> |Split(r, ':')| == 3
  {
    var minutes, seconds := total / 60, total % 60;
    var hours, mins := minutes / 60, minutes % 60;
    ClockArithmetic(total);
    ClockFieldOfPad2(seconds);
    if hours != 0 then
      var r := IntToString(hours) + ":" + Pad2(mins) + ":" + Pad2(seconds);
      assert r[|IntToString(hours)|] == ':';
      HoursField(hours);
      ClockFieldOfPad2(mins);
      SplitClockThree(IntToString(hours), Pad2(mins), Pad2(seconds));
      r
    else
      var r := NatToString(mins) + ":" + Pad2(seconds);
      assert r[|NatToString(mins)|] == ':';
      MinutesField(mins);
      SplitClockTwo(NatToString(mins), Pad2(seconds));
      r
  }

  // ---------------------------------------------------------------------------
  // Reading a clock back
  // ---------------------------------------------------------------------------

  /** A two-digit minutes or seconds field below 60. */
  predicate IsClockField(s: string) {
    |s| == 2 && IsNumeral(s) && NumeralValue(s) < 60
  }

  /** The value of a clock given as its colon-separated fields: minutes and
      seconds, or a possibly signed hour count, minutes and seconds. */
  function ClockOfFields(f: seq<string>): Option<int>
  {
    if |f| == 2 && IsNumeral(f[0]) && IsClockField(f[1]) then
      Some(NumeralValue(f[0]) * 60 + NumeralValue(f[1]))
    else if |f| == 3 && ParseInt(f[0]).Some? && IsClockField(f[1]) && IsClockField(f[2]) then
      Some(ParseInt(f[0]).value * 3600 + NumeralValue(f[1]) * 60 + NumeralValue(f[2]))
    else
      None
  }

  /** Reads `M:SS` or `H:MM:SS` as a number of seconds; anything else,
      `"Unknown"` included, is None. */
  function ParseClock(t: string): Option<int>
  {
    ClockOfFields(Split(t, ':'))
  }

  lemma ClockFieldOfPad2(n: nat)
    requires n < 60
    ensures IsClockField(Pad2(n)) && ':' !in Pad2(n) && NumeralValue(Pad2(n)) == n
  {
    DigitsHaveNoColon(Pad2(n));
  }

  lemma MinutesField(m: nat)
    ensures IsNumeral(NatToString(m)) && ':' !in NatToString(m) && NumeralValue(NatToString(m)) == m
  {
    DigitsHaveNoColon(NatToString(m));
    NatToStringRoundTrip(m);
  }

  lemma HoursField(h: int)
    ensures ParseInt(IntToString(h)) == Some(h) && ':' !in IntToString(h)
  {
    IntTextHasNoColon(h);
  }

  lemma JoinTwo(a: string, b: string)
    ensures Join([a, b], ':') == a + ":" + b
  {
    assert [a, b][1..] == [b];
  }

  lemma JoinThree(a: string, b: string, c: string)
    ensures Join([a, b, c], ':') == a + ":" + b + ":" + c
  {
    assert [a, b, c][1..] == [b, c];
    JoinTwo(b, c);
  }

  /** The shape promise: below an hour (and not negative) the text has two
      fields, the unpadded minutes below 60 and two-digit seconds; otherwise
      three fields, the hour count as `str()` prints it, then minutes and
      seconds as two digits below 60. */
  lemma FormatDurationFields(d: Option<Number>)
    requires IsKnown(d)
    ensures var s := Truncate(d.value);
            var f := Split(FormatDuration(d), ':');
            && (0 <= s < 3600 ==>
                  && |f| == 2 && IsNumeral(f[0]) && NumeralValue(f[0]) < 60 && IsClockField(f[1])
                  && f[0] == NatToString(s / 60))
            && (!(0 <= s < 3600) ==>
                  && |f| == 3 && ParseInt(f[0]).Some? && ParseInt(f[0]).value != 0
                  && IsClockField(f[1]) && IsClockField(f[2])
                  && f[0] == IntToString(s / 60 / 60))
  {
    var total := Truncate(d.value);
    var minutes, seconds := total / 60, total % 60;
    var hours, mins := minutes / 60, minutes % 60;
    ClockArithmetic(total);
    ClockFieldOfPad2(seconds);
    ClockFieldOfPad2(mins);
    if hours != 0 {
      var a, b, c := IntToString(hours), Pad2(mins), Pad2(seconds);
      JoinThree(a, b, c);
      SplitJoin([a, b, c], ':');
    } else {
      var a, b := NatToString(mins), Pad2(seconds);
      JoinTwo(a, b);
      SplitJoin([a, b], ':');
      NatToStringRoundTrip(mins);
    }
  }

  /** The seconds, minutes and hours fields put back together give the total. */
  lemma ClockArithmetic(total: int)
    ensures var minutes := total / 60;
            && total == (minutes / 60) * 3600 + (minutes % 60) * 60 + total % 60
            && (minutes / 60 == 0 <==> 0 <= total < 3600)
  {
  }

  lemma SplitClockTwo(a: string, b: string)
    requires ':' !in a && ':' !in b
    ensures Split(a + ":" + b, ':') == [a, b]
  {
    SplitSeparatorFree(b, ':');
    SplitAtFirst(a, b, ':');
  }

  lemma SplitClockThree(a: string, b: string, c: string)
    requires ':' !in a && ':' !in b && ':' !in c
    ensures Split(a + ":" + b + ":" + c, ':') == [a, b, c]
  {
    var r := b + ":" + c;
    assert Split(r, ':') == [b, c] by {
      SplitClockTwo(b, c);
    }
    assert Split(a + [':'] + r, ':') == [a] + Split(r, ':') by {
      SplitAtFirst(a, r, ':');
    }
    assert a + ":" + b + ":" + c == a + [':'] + r;
  }

  lemma ClockOfTwoFields(a: string, b: string, m: int, sec: int)
    requires IsNumeral(a) && NumeralValue(a) == m
    requires IsClockField(b) && NumeralValue(b) == sec
    ensures ClockOfFields([a, b]) == Some(m * 60 + sec)
  {
  }

  lemma ClockOfThreeFields(a: string, b: string, c: string, h: int, m: int, sec: int)
    requires ParseInt(a) == Some(h)
    requires IsClockField(b) && NumeralValue(b) == m
    requires IsClockField(c) && NumeralValue(c) == sec
    ensures ClockOfFields([a, b, c]) == Some(h * 3600 + m * 60 + sec)
  {
  }

  /** Two colon-free fields joined by a colon read as minutes and seconds. */
  lemma ParseClockTwo(a: string, b: string, m: int, sec: int)
    requires IsNumeral(a) && ':' !in a && NumeralValue(a) == m
    requires IsClockField(b) && ':' !in b && NumeralValue(b) == sec
    ensures ParseClock(a + ":" + b) == Some(m * 60 + sec)
  {
    SplitClockTwo(a, b);
    ClockOfTwoFields(a, b, m, sec);
  }

  /** Three colon-free fields joined by colons read as hours, minutes and
      seconds. */
  lemma ParseClockThree(a: string, b: string, c: string, h: int, m: int, sec: int)
    requires ParseInt(a) == Some(h) && ':' !in a
    requires IsClockField(b) && ':' !in b && NumeralValue(b) == m
    requires IsClockField(c) && ':' !in c && NumeralValue(c) == sec
    ensures ParseClock(a + ":" + b + ":" + c) == Some(h * 3600 + m * 60 + sec)
  {
    SplitClockThree(a, b, c);
    ClockOfThreeFields(a, b, c, h, m, sec);
  }

  /** An `H:MM:SS` text reads back to its number of seconds. */
  lemma ParseThreeFields(h: int, m: nat, sec: nat)
    requires m < 60 && sec < 60
    ensures ParseClock(IntToString(h) + ":" + Pad2(m) + ":" + Pad2(sec)) == Some(h * 3600 + m * 60 + sec)
  {
    HoursField(h);
    ClockFieldOfPad2(m);
    ClockFieldOfPad2(sec);
    ParseClockThree(IntToString(h), Pad2(m), Pad2(sec), h, m, sec);
  }

  /** An `M:SS` text reads back to its number of seconds. */
  lemma ParseTwoFields(m: nat, sec: nat)
    requires sec < 60
    ensures ParseClock(NatToString(m) + ":" + Pad2(sec)) == Some(m * 60 + sec)
  {
    MinutesField(m);
    ClockFieldOfPad2(sec);
    ParseClockTwo(NatToString(m), Pad2(sec), m, sec);
  }

  /** Below an hour and not negative, the text is `M:SS`. */
  lemma ShortClockRoundTrip(total: int)
    requires 0 <= total < 3600
    ensures ParseClock(FormatSeconds(total)) == Some(total)
  {
    var minutes, seconds := total / 60, total % 60;
    assert FormatSeconds(total) == NatToString(minutes) + ":" + Pad2(seconds);
    ParseTwoFields(minutes, seconds);
  }

  /** From an hour on, and for negative lengths, the text is `H:MM:SS`. */
  lemma LongClockRoundTrip(total: int)
    requires !(0 <= total < 3600)
    ensures ParseClock(FormatSeconds(total)) == Some(total)
  {
    var minutes, seconds := total / 60, total % 60;
    var hours, mins := minutes / 60, minutes % 60;
    ClockArithmetic(total);
    assert FormatSeconds(total) == IntToString(hours) + ":" + Pad2(mins) + ":" + Pad2(seconds);
    ParseThreeFields(hours, mins, seconds);
  }

  /** The round trip: parsing the fields back gives `int(seconds)`, and
      `"Unknown"` parses as nothing. */
  lemma DurationRoundTrip(d: Option<Number>)
    ensures ParseClock(FormatDuration(d)) == if IsKnown(d) then Some(Truncate(d.value)) else None
  {
    if !IsKnown(d) {
      assert ':' !in Unknown;
      SplitSeparatorFree(Unknown, ':');
    } else {
      var total := Truncate(d.value);
      if 0 <= total < 3600 {
        ShortClockRoundTrip(total);
      } else {
        LongClockRoundTrip(total);
      }
    }
  }
}

=== FILE: keyboard.dfy ===
/** `create_search_results_keyboard` and the parsing of its callback data in
    `handle_callback`: button `i` carries `download:i`, and the handler reads
    the index back with `int(data.split(":")[1])`. */
module Keyboard {
  import opened Wrappers
  import opened Text
  import opened Search

  datatype Button = Button(text: string, data: string)

  const TitleLimit := 50
  const Ellipsis := "..."
  const DownloadPrefix := "download:"
  const BackData := "back_to_menu"

  /** Line 395: a title longer than 50 characters is cut to its first 50 and
      marked with an ellipsis. */
  function ShortTitle(title: string): (r: string)
    ensures |title| <= TitleLimit ==> r == title
    ensures |title| > TitleLimit ==> |r| == TitleLimit + 3 && StartsWith(title, r[..TitleLimit]) && EndsWith(r, Ellipsis)
    ensures |r| <= TitleLimit + 3
  {
    if |title| > TitleLimit then
      var r := title[..TitleLimit] + Ellipsis;
      assert r[..TitleLimit] == title[..TitleLimit];
      assert r[|r| - 3..] == Ellipsis;
      r
    else
      title
  }

  /** Line 397: a note symbol, the shortened title and the duration text in
      parentheses; the title takes at most 53 characters of the label. */
  function ButtonLabel(c: Candidate): (caption: string)
    ensures StartsWith(caption, "\U{1F3B5} ")
    ensures EndsWith(caption, " (" + c.duration + ")")
    ensures |caption| <= TitleLimit + 3 + |c.duration| + 5
    ensures |c.title| <= TitleLimit ==> |caption| == |c.title| + |c.duration| + 5
    ensures |caption| == 2 + |ShortTitle(c.title)| + |c.duration| + 3
    ensures caption[2..|caption| - |c.duration| - 3] == ShortTitle(c.title)
  {
    var note, tail := "\U{1F3B5} ", " (" + c.duration + ")";
    var caption := note + ShortTitle(c.title) + tail;
    assert caption[..|note|] == note;
    assert caption[|caption| - |tail|..] == tail;
    caption
  }


  /** What a callback string asks for. `MalformedPick` is a `download:` string
      whose second field `int()` rejects: the handler raises there. */
  datatype CallbackAction = Pick(index: int) | MalformedPick | BackToMenu | Ignored

  /** A `download:` string splits into at least two fields, the second being
      the first field of what follows the prefix. */
  lemma DownloadFields(data: string)
    requires StartsWith(data, DownloadPrefix)
    ensures |Split(data, ':')| >= 2
    ensures Split(data, ':')[1] == Split(data[|DownloadPrefix|..], ':')[0]
  {
    var rest := data[|DownloadPrefix|..];
    assert data == "download" + [':'] + rest;
    assert ':' !in "download";
    SplitAtFirst("download", rest, ':');
  }

  lemma BackIsNotDownload()
    ensures !StartsWith(BackData, DownloadPrefix)
  {
    assert BackData[..|DownloadPrefix|][0] != DownloadPrefix[0];
  }

  /** Lines 1337-1338 and 1413: the branch a callback string selects, and the
      index a `download:` string carries. */
  function ParseCallback(data: string): (a: CallbackAction)
    ensures a.Pick? || a.MalformedPick? <==> StartsWith(data, DownloadPrefix)
    ensures a.BackToMenu? <==> data == BackData
    ensures a.Pick? ==> |Split(data, ':')| >= 2 && Some(a.index) == ParseInt(Split(data, ':')[1])
    ensures a.MalformedPick? ==> |Split(data, ':')| >= 2 && ParseInt(Split(data, ':')[1]).None?
  {
    BackIsNotDownload();
    if StartsWith(data, DownloadPrefix) then
      DownloadFields(data);
      var index := ParseInt(Split(data, ':')[1]);
      if index.Some? then Pick(index.value) else MalformedPick
    else if data == BackData then BackToMenu
    else Ignored
  }

  /** Line 398: the callback data of button `i`, which the handler parses
      back to `i`. */
  function DownloadData(i: nat): (data: string)
    ensures StartsWith(data, DownloadPrefix)
    ensures ParseCallback(data) == Pick(i)
  {
    var data := DownloadPrefix + NatToString(i);
    assert data[..|DownloadPrefix|] == DownloadPrefix;
    assert data[|DownloadPrefix|..] == NatToString(i);
    assert ':' !in NatToString(i) by {
      assert AllDigits(NatToString(i));
    }
    DownloadFields(data);
    SplitSeparatorFree(NatToString(i), ':');
    NatToStringRoundTrip(i);
    data
  }

  /** Lines 391-404: one button per result, in order, then the back button. */
  function ResultsKeyboard(results: seq<Candidate>, backLabel: string): (kb: seq<Button>)
    ensures |kb| == |results| + 1
    ensures forall i :: 0 <= i < |results| ==> ParseCallback(kb[i].data) == Pick(i)
    ensures forall i :: 0 <= i < |results| ==> kb[i].text == ButtonLabel(results[i])
    ensures ParseCallback(kb[|results|].data) == BackToMenu
  {
    var buttons := seq(|results|, i requires 0 <= i < |results| => Button(ButtonLabel(results[i]), DownloadData(i)));
    forall i | 0 <= i < |results| ensures ParseCallback(buttons[i].data) == Pick(i) {
      assert buttons[i].data == DownloadData(i);
    }
    buttons + [Button(backLabel, BackData)]
  }
}

=== FILE: messages.dfy ===
/** The text side of the bot that the pipeline leans on: the per-user
    interface language (lines 285-289 and 1167-1170), the lookup of an
    interface text with its fallbacks (lines 335-337), and the cutting of a
    long reply into messages Telegram accepts (lines 596-599). */
module Messages {
  import opened Quota

  type Language = string

  const DefaultLanguage: Language := "ru"
  const English: Language := "en"

  /** The longest part a long reply is cut into. */
  const MessageLimit := 4000

  // ---------------------------------------------------------------------------
  // Language
  // ---------------------------------------------------------------------------

  /** `get_user_language`: the chosen language, Russian when none was chosen. */
  function CurrentLanguage(langs: map<UserId, Language>, user: UserId): Language {
    if user in langs then langs[user] else DefaultLanguage
  }

  /** The language button: English after Russian, Russian after anything else. */
  function ToggleLanguage(langs: map<UserId, Language>, user: UserId): (r: map<UserId, Language>)
    ensures CurrentLanguage(langs, user) == DefaultLanguage ==> CurrentLanguage(r, user) == English
    ensures CurrentLanguage(langs, user) != DefaultLanguage ==> CurrentLanguage(r, user) == DefaultLanguage
    ensures forall u :: u != user ==> CurrentLanguage(r, u) == CurrentLanguage(langs, u)
    ensures r.Keys == langs.Keys + {user}
  {
    langs[user := if CurrentLanguage(langs, user) == DefaultLanguage then English else DefaultLanguage]
  }

  /** Pressing the language button twice brings back the language a user had,
      as long as it was one of the two the button switches between. */
  lemma ToggleTwiceRestores(langs: map<UserId, Language>, user: UserId)
    requires CurrentLanguage(langs, user) in {DefaultLanguage, English}
    ensures forall u :: CurrentLanguage(ToggleLanguage(ToggleLanguage(langs, user), user), u) == CurrentLanguage(langs, u)
  {
  }

  /** After a press the user's language is one of the two the bot has texts for. */
  lemma ToggleGivesKnownLanguage(langs: map<UserId, Language>, user: UserId)
    ensures CurrentLanguage(ToggleLanguage(langs, user), user) in {DefaultLanguage, English}
  {
  }

  // ---------------------------------------------------------------------------
  // Texts
  // ---------------------------------------------------------------------------

  /** The `TEXTS` table: one dictionary of texts per language, Russian always
      present. */
  type Texts = map<Language, map<string, string>>

  /** `get_text`: the user's table, or the Russian one when the language has
      none; the key itself when that one table lacks it, even if another
      table has it. */
  function GetText(texts: Texts, langs: map<UserId, Language>, user: UserId, key: string): (r: string)
    requires DefaultLanguage in texts
    ensures r == key || exists l :: l in texts && key in texts[l] && r == texts[l][key]
    ensures var l := CurrentLanguage(langs, user);
            l in texts && key in texts[l] ==> r == texts[l][key]
    ensures var l := CurrentLanguage(langs, user);
            l !in texts && key in texts[DefaultLanguage] ==> r == texts[DefaultLanguage][key]
    ensures var l := CurrentLanguage(langs, user);
            l in texts && key !in texts[l] ==> r == key
    ensures var l := CurrentLanguage(langs, user);
            l !in texts && key !in texts[DefaultLanguage] ==> r == key
  {
    var lang := CurrentLanguage(langs, user);
    var table := if lang in texts then texts[lang] else texts[DefaultLanguage];
    if key in table then table[key] else key
  }

  /** A key missing from the table that is consulted comes back unchanged,
      and only then when no table maps it to something else. */
  lemma MissingKeyEchoes(texts: Texts, langs: map<UserId, Language>, user: UserId, key: string)
    requires DefaultLanguage in texts
    requires forall l :: l in texts ==> key !in texts[l]
    ensures GetText(texts, langs, user, key) == key
  {
  }

  /** The Russian table is a fallback for a missing language only, never for
      a missing key: a user whose table lacks the key sees the key, even when
      the Russian table has a text for it. */
  lemma NoFallbackPerKey(texts: Texts, langs: map<UserId, Language>, user: UserId, key: string)
    requires DefaultLanguage in texts
    requires CurrentLanguage(langs, user) in texts && key !in texts[CurrentLanguage(langs, user)]
    ensures GetText(texts, langs, user, key) == key
  {
  }

  // ---------------------------------------------------------------------------
  // Long replies
  // ---------------------------------------------------------------------------

  /** The messages of a reply, one after another. */
  function Concat(parts: seq<string>): string {
    if |parts| == 0 then [] else parts[0] + Concat(parts[1..])
  }

  /** The list comprehension of line 597: consecutive slices of `n`
      characters, the last one possibly shorter. */
  function Chunks(t: string, n: int): (parts: seq<string>)
    requires n > 0
    ensures Concat(parts) == t
    ensures forall k :: 0 <= k < |parts| ==> 0 < |parts[k]| <= n
    ensures forall k :: 0 <= k < |parts| - 1 ==> |parts[k]| == n
    ensures |t| == 0 <==> |parts| == 0
    decreases |t|
  {
    if |t| == 0 then []
    else if |t| <= n then [t]
    else
      var rest := Chunks(t[n..], n);
      assert ([t[..n]] + rest)[1..] == rest;
      assert t[..n] + t[n..] == t;
      [t[..n]] + rest
  }

  /** Lines 596-601: a reply longer than the limit goes out as consecutive
      parts that add up to it, every part but the last exactly 4000
      characters; a shorter one goes out as itself. */
  function SplitForSending(t: string): (parts: seq<string>)
    ensures Concat(parts) == t
    ensures |parts| >= 1
    ensures forall k :: 0 <= k < |parts| ==> |parts[k]| <= MessageLimit
    ensures |t| <= MessageLimit ==> parts == [t]
    ensures |t| > MessageLimit ==> |parts| >= 2 && forall k :: 0 <= k < |parts| ==> |parts[k]| > 0
    ensures forall k :: 0 <= k < |parts| - 1 ==> |parts[k]| == MessageLimit
  {
    if |t| > MessageLimit then
      Chunks(t, MessageLimit)
    else
      assert [t][1..] == [];
      [t]
  }
}

=== FILE: naming.dfy ===
/** The file-naming half of `MusicDownloader.download_audio`: the title is
    filtered through an allow-list and stripped, the extractor is run with that
    name as its output template, and the produced `.mp3` is then looked up in
    the temporary directory, first by exact name and then by prefix. The
    extractor itself is opaque: it either raises or leaves a directory listing
    behind. */
module Naming {
  import opened Wrappers
  import opened Text

  // ---------------------------------------------------------------------------
  // Title sanitisation
  // ---------------------------------------------------------------------------

  /** The characters the allow-list keeps. `isAlnum` stands for Python's
      Unicode-aware `str.isalnum`, which the model does not fix. */
  predicate Allowed(isAlnum: char -> bool, c: char) {
    isAlnum(c) || c == ' ' || c == '-' || c == '_'
  }

  predicate AllAllowed(isAlnum: char -> bool, s: string) {
    forall i :: 0 <= i < |s| ==> Allowed(isAlnum, s[i])
  }

  /** Neither the first nor the last character is a space. */
  predicate NoOuterSpace(s: string) {
    s == [] || (s[0] != ' ' && s[|s| - 1] != ' ')
  }

  /** `a` is obtained from `b` by deleting characters. */
  predicate IsSubsequence(a: string, b: string)
    decreases |b|
  {
    || |a| == 0
    || (&& |b| > 0
        && ((a[0] == b[0] && IsSubsequence(a[1..], b[1..])) || IsSubsequence(a, b[1..])))
  }

  lemma {:induction false} SubsequenceTransitive(a: string, b: string, c: string)
    requires IsSubsequence(a, b) && IsSubsequence(b, c)
    ensures IsSubsequence(a, c)
    decreases |c|
  {
    if |a| > 0 {
      if b[0] == c[0] && IsSubsequence(b[1..], c[1..]) {
        if a[0] == b[0] && IsSubsequence(a[1..], b[1..]) {
          SubsequenceTransitive(a[1..], b[1..], c[1..]);
        } else {
          SubsequenceTransitive(a, b[1..], c[1..]);
        }
      } else {
        SubsequenceTransitive(a, b, c[1..]);
      }
    }
  }

  /** Every contiguous slice is a subsequence. */
  lemma {:induction false} SliceIsSubsequence(s: string, i: nat, j: nat)
    requires i <= j <= |s|
    ensures IsSubsequence(s[i..j], s)
    decreases |s|
  {
    if i < j {
      if i == 0 {
        assert s[i..j][1..] == s[1..][0..j - 1];
        SliceIsSubsequence(s[1..], 0, j - 1);
      } else {
        assert s[i..j] == s[1..][i - 1..j - 1];
        SliceIsSubsequence(s[1..], i - 1, j - 1);
      }
    }
  }

  /** The generator expression of line 261: keep the allowed characters, in order. */
  function KeepAllowed(isAlnum: char -> bool, s: string): (r: string)
    ensures AllAllowed(isAlnum, r)
    ensures IsSubsequence(r, s)
    decreases |s|
  {
    if |s| == 0 then []
    else
      var rest := KeepAllowed(isAlnum, s[1..]);
      if Allowed(isAlnum, s[0]) then
        var r := [s[0]] + rest;
        assert r[1..] == rest;
        r
      else
        rest
  }

  /** The filter distributes over concatenation: together with its action on a
      single character, this determines it completely. */
  lemma {:induction false} KeepAllowedAppend(isAlnum: char -> bool, a: string, b: string)
    ensures KeepAllowed(isAlnum, a + b) == KeepAllowed(isAlnum, a) + KeepAllowed(isAlnum, b)
    decreases |a|
  {
    if |a| > 0 {
      assert (a + b)[1..] == a[1..] + b;
      KeepAllowedAppend(isAlnum, a[1..], b);
    } else {
      assert a + b == b;
    }
  }

  /** A string made only of allowed characters passes the filter unchanged. */
  lemma {:induction false} KeepAllowedFixes(isAlnum: char -> bool, s: string)
    requires AllAllowed(isAlnum, s)
    ensures KeepAllowed(isAlnum, s) == s
    decreases |s|
  {
    if |s| > 0 {
      assert AllAllowed(isAlnum, s[1..]) by {
        forall k | 0 <= k < |s[1..]| ensures Allowed(isAlnum, s[1..][k]) {
          assert s[1..][k] == s[k + 1];
        }
      }
      KeepAllowedFixes(isAlnum, s[1..]);
      assert [s[0]] + s[1..] == s;
    }
  }

  /** Leading spaces removed: the result is a suffix, everything dropped was a
      space, and the result does not start with one. */
  function TrimLeft(s: string): (r: string)
    ensures |r| <= |s| && r == s[|s| - |r|..]
    ensures forall i :: 0 <= i < |s| - |r| ==> s[i] == ' '
    ensures r == [] || r[0] != ' '
    decreases |s|
  {
    if |s| > 0 && s[0] == ' ' then TrimLeft(s[1..]) else s
  }

  /** Trailing spaces removed: the result is a prefix, everything dropped was a
      space, and the result does not end with one. */
  function TrimRight(s: string): (r: string)
    ensures |r| <= |s| && r == s[..|r|]
    ensures forall i :: |r| <= i < |s| ==> s[i] == ' '
    ensures r == [] || r[|r| - 1] != ' '
    decreases |s|
  {
    if |s| > 0 && s[|s| - 1] == ' ' then TrimRight(s[..|s| - 1]) else s
  }

  /** Cutting `s` to `s[i..j]` drops nothing but spaces. */
  predicate IsSpaceCut(s: string, i: int, j: int) {
    && 0 <= i <= j <= |s|
    && (forall k :: 0 <= k < i ==> s[k] == ' ')
    && (forall k :: j <= k < |s| ==> s[k] == ' ')
  }

  /** `r` is `s` with nothing but spaces removed, and only from its two ends. */
  ghost predicate TrimsSpaces(r: string, s: string) {
    exists i, j :: IsSpaceCut(s, i, j) && r == s[i..j]
  }

  /** Python's `str.strip()` applied to the filtered title. Only `' '` is
      removed: the filter has already discarded every other whitespace
      character, since Python's `isalnum` is false on all of them. */
  function Strip(s: string): (r: string)
    ensures TrimsSpaces(r, s)
    ensures NoOuterSpace(r)
    ensures IsSubsequence(r, s)
    ensures NoOuterSpace(s) ==> r == s
  {
    TrimBothCuts(s);
    TrimBothIsSubsequence(s);
    TrimRight(TrimLeft(s))
  }

  lemma TrimBothCuts(s: string)
    ensures TrimsSpaces(TrimRight(TrimLeft(s)), s)
  {
    var t := TrimLeft(s);
    var r := TrimRight(t);
    var i := |s| - |t|;
    assert IsSpaceCut(s, i, |s|) && t == s[i..];
    assert IsSpaceCut(t, 0, |r|) && r == t[..|r|];
    CutOfCut(s, i, t, |r|);
    assert IsSpaceCut(s, i, i + |r|) && r == s[i..i + |r|];
  }

  /** Cutting a suffix cut again gives a cut of the original text. */
  lemma CutOfCut(s: string, i: nat, t: string, m: nat)
    requires IsSpaceCut(s, i, |s|) && t == s[i..]
    requires IsSpaceCut(t, 0, m)
    ensures IsSpaceCut(s, i, i + m) && t[..m] == s[i..i + m]
  {
    forall k | i + m <= k < |s| ensures s[k] == ' ' {
      assert s[k] == t[k - i];
    }
  }

  lemma TrimBothIsSubsequence(s: string)
    ensures IsSubsequence(TrimRight(TrimLeft(s)), s)
  {
    var t := TrimLeft(s);
    var r := TrimRight(t);
    SliceIsSubsequence(s, |s| - |t|, |s|);
    assert s[|s| - |t|..|s|] == t;
    SliceIsSubsequence(t, 0, |r|);
    assert t[0..|r|] == r;
    SubsequenceTransitive(r, t, s);
  }

  /** Trimming outer spaces has one result: two texts cut from the same `s`
      by removing only outer spaces, neither with an outer space left, are
      equal. With `Strip`'s contract this determines `Strip` completely. */
  lemma TrimIsUnique(s: string, r1: string, r2: string)
    requires TrimsSpaces(r1, s) && NoOuterSpace(r1)
    requires TrimsSpaces(r2, s) && NoOuterSpace(r2)
    ensures r1 == r2
  {
    var i1, j1 :| IsSpaceCut(s, i1, j1) && r1 == s[i1..j1];
    var i2, j2 :| IsSpaceCut(s, i2, j2) && r2 == s[i2..j2];
    if i1 < j1 {
      CutEnds(s, i1, j1);
      CutsMeet(s, i1, j1, i2, j2);
    } else {
      CutsMeet(s, i2, j2, i1, j1);
    }
  }

  /** The ends of a non-empty cut without outer space are not spaces. */
  lemma CutEnds(s: string, i: int, j: int)
    requires IsSpaceCut(s, i, j) && i < j && NoOuterSpace(s[i..j])
    ensures s[i] != ' ' && s[j - 1] != ' '
  {
    assert s[i..j][0] == s[i] && s[i..j][j - i - 1] == s[j - 1];
  }

  /** A cut whose ends are not spaces is the only cut without outer space. */
  lemma CutsMeet(s: string, i1: int, j1: int, i2: int, j2: int)
    requires IsSpaceCut(s, i1, j1) && IsSpaceCut(s, i2, j2) && NoOuterSpace(s[i2..j2])
    requires i1 < j1 ==> s[i1] != ' ' && s[j1 - 1] != ' '
    ensures s[i1..j1] == s[i2..j2]
  {
    if i2 < j2 {
      CutEnds(s, i2, j2);
      assert i1 == i2 && j1 == j2;
    } else {
      assert i1 == j1;
    }
  }

  /** Trimming an allow-listed text leaves it allow-listed. */
  lemma CutKeepsAllowed(isAlnum: char -> bool, s: string, r: string)
    requires AllAllowed(isAlnum, s) && TrimsSpaces(r, s)
    ensures AllAllowed(isAlnum, r)
  {
    var i, j :| IsSpaceCut(s, i, j) && r == s[i..j];
    forall k | 0 <= k < |r| ensures Allowed(isAlnum, r[k]) {
      assert r[k] == s[i + k];
    }
  }

  /** Line 261: the allow-list filter followed by `strip()`. There is no
      truncation and no disambiguating token. */
  function Sanitize(isAlnum: char -> bool, title: string): (r: string)
    ensures AllAllowed(isAlnum, r)
    ensures NoOuterSpace(r)
    ensures TrimsSpaces(r, KeepAllowed(isAlnum, title))
    ensures IsSubsequence(r, title)
  {
    var f := KeepAllowed(isAlnum, title);
    var r := Strip(f);
    CutKeepsAllowed(isAlnum, f, r);
    SubsequenceTransitive(r, f, title);
    r
  }

  /** Sanitising twice is the same as sanitising once. */
  lemma SanitizeIdempotent(isAlnum: char -> bool, title: string)
    ensures Sanitize(isAlnum, Sanitize(isAlnum, title)) == Sanitize(isAlnum, title)
  {
    var r := Sanitize(isAlnum, title);
    KeepAllowedFixes(isAlnum, r);
  }

  /** The names the sanitiser leaves alone are exactly the allow-listed ones
      without outer spaces. */
  lemma SanitizeFixedPoints(isAlnum: char -> bool, name: string)
    ensures Sanitize(isAlnum, name) == name <==> AllAllowed(isAlnum, name) && NoOuterSpace(name)
  {
    if AllAllowed(isAlnum, name) && NoOuterSpace(name) {
      KeepAllowedFixes(isAlnum, name);
    }
  }

  /** Titles that differ only in filtered-out characters share one file name:
      the source adds no token to tell their artifacts apart. */
  lemma DistinctTitlesShareName(isAlnum: char -> bool)
    requires !isAlnum('?') && !isAlnum('!')
    ensures "Hit?" != "Hit!"
    ensures Sanitize(isAlnum, "Hit?") == Sanitize(isAlnum, "Hit!")
  {
    KeepAllowedAppend(isAlnum, "Hit", "?");
    KeepAllowedAppend(isAlnum, "Hit", "!");
    assert "Hit" + "?" == "Hit?" && "Hit" + "!" == "Hit!";
    assert KeepAllowed(isAlnum, "?") == [] by {
      assert "?"[1..] == [];
    }
    assert KeepAllowed(isAlnum, "!") == [] by {
      assert "!"[1..] == [];
    }
  }

  // ---------------------------------------------------------------------------
  // Artifact lookup
  // ---------------------------------------------------------------------------

  const AudioSuffix := ".mp3"

  /** The exact file name the post-processor is expected to produce (line 269). */
  function ExpectedFile(name: string): string {
    name + AudioSuffix
  }

  /** The test of line 274: the entry starts with the name and ends in `.mp3`. */
  predicate IsArtifactOf(entry: string, name: string) {
    StartsWith(entry, name) && EndsWith(entry, AudioSuffix)
  }

  lemma ExpectedFileIsArtifact(name: string)
    ensures IsArtifactOf(ExpectedFile(name), name)
  {
    var e := ExpectedFile(name);
    assert e[..|name|] == name;
    assert e[|e| - |AudioSuffix|..] == AudioSuffix;
  }

  /** The position of the first listing entry the scan of lines 273-275 accepts. */
  function FirstArtifactIndex(name: string, listing: seq<string>): (k: Option<nat>)
    ensures k.Some? ==> k.value < |listing| && IsArtifactOf(listing[k.value], name)
    ensures k.Some? ==> forall j :: 0 <= j < k.value ==> !IsArtifactOf(listing[j], name)
    ensures k.None? <==> forall j :: 0 <= j < |listing| ==> !IsArtifactOf(listing[j], name)
    decreases |listing|
  {
    if |listing| == 0 then None
    else if IsArtifactOf(listing[0], name) then Some(0)
    else
      match FirstArtifactIndex(name, listing[1..])
      case None => None
      case Some(k) => Some(k + 1)
  }

  /** Entry `k` is the first the scan of lines 273-275 accepts. */
  predicate IsFirstArtifact(listing: seq<string>, k: int, name: string) {
    && 0 <= k < |listing| && IsArtifactOf(listing[k], name)
    && forall j :: 0 <= j < k ==> !IsArtifactOf(listing[j], name)
  }

  /** Lines 269-277: the exact name if it is in the directory, else the first
      entry with the right prefix and suffix, else nothing. */
  function LocateArtifact(name: string, listing: seq<string>): (found: Option<string>)
    ensures ExpectedFile(name) in listing ==> found == Some(ExpectedFile(name))
    ensures found.Some? ==> found.value in listing && IsArtifactOf(found.value, name)
    ensures found.Some? ==> EndsWith(found.value, AudioSuffix)
    ensures found.None? <==> forall j :: 0 <= j < |listing| ==> !IsArtifactOf(listing[j], name)
    ensures ExpectedFile(name) !in listing && found.Some? ==>
              exists k :: IsFirstArtifact(listing, k, name) && found.value == listing[k]
  {
    ExpectedFileIsArtifact(name);
    if ExpectedFile(name) in listing then Some(ExpectedFile(name))
    else
      match FirstArtifactIndex(name, listing)
      case None => None
      case Some(k) => Some(listing[k])
  }

  /** Without the exact file, the lookup returns the first matching entry in
      listing order, whoever produced it. */
  lemma LocatePicksFirstMatch(name: string, listing: seq<string>, k: nat)
    requires ExpectedFile(name) !in listing
    requires k < |listing| && IsArtifactOf(listing[k], name)
    requires forall j :: 0 <= j < k ==> !IsArtifactOf(listing[j], name)
    ensures LocateArtifact(name, listing) == Some(listing[k])
  {
    var i := FirstArtifactIndex(name, listing);
    assert i.Some?;
  }

  /** A title that sanitises to the empty name matches every `.mp3` entry. */
  lemma EmptyNameMatchesAnyAudio(listing: seq<string>, k: nat)
    requires k < |listing| && EndsWith(listing[k], AudioSuffix)
    ensures LocateArtifact("", listing).Some?
  {
    assert IsArtifactOf(listing[k], "");
  }

  // ---------------------------------------------------------------------------
  // The whole download step
  // ---------------------------------------------------------------------------

  /** What the opaque extractor call (lines 266-267) leaves behind: it raised,
      or it finished and the temporary directory now lists these entries. */
  datatype Extraction = ExtractorRaised | Extracted(listing: seq<string>)

  /** `download_audio` (lines 259-280) returning the artifact's entry name in
      the temporary directory, or None. */
  function DownloadAudio(isAlnum: char -> bool, title: string, run: Extraction): (file: Option<string>)
    ensures run.ExtractorRaised? ==> file.None?
    ensures file.Some? ==> run.Extracted? && file.value in run.listing
    ensures file.Some? ==> IsArtifactOf(file.value, Sanitize(isAlnum, title))
    ensures run.Extracted? && ExpectedFile(Sanitize(isAlnum, title)) in run.listing ==>
              file == Some(ExpectedFile(Sanitize(isAlnum, title)))
    ensures run.Extracted? ==>
              (file.None? <==> forall j :: 0 <= j < |run.listing| ==> !IsArtifactOf(run.listing[j], Sanitize(isAlnum, title)))
    ensures run.Extracted? && ExpectedFile(Sanitize(isAlnum, title)) !in run.listing && file.Some? ==>
              exists k :: IsFirstArtifact(run.listing, k, Sanitize(isAlnum, title)) && file.value == run.listing[k]
  {
    match run
    case ExtractorRaised => None
    case Extracted(listing) => LocateArtifact(Sanitize(isAlnum, title), listing)
  }
}

=== FILE: pipeline.dfy ===
/** Properties of the pipeline across messages and button presses: what a
    shown button selects, how the daily counter evolves over any sequence of
    events, and how the source's quota gate behaves once a free user has used
    up a day's allowance. */
module Pipeline {
  import opened Wrappers
  import opened Search
  import opened Keyboard
  import opened Naming
  import opened Quota
  import opened Bot

  /** Something that reaches the bot: a text message (with the provider's
      answer to the search it may start) or a button press (with the day it
      happens on, what the extractor did and whether sending succeeded). */
  datatype Event =
    | Message(user: UserId, text: Option<string>, resp: Option<Response>)
    | Press(user: UserId, data: string, today: Date, run: Extraction, send: Sending)

  function Apply(policy: GatePolicy, isAlnum: char -> bool, st: State, e: Event): State {
    match e
    case Message(u, text, resp) => HandleMessage(st, u, text, resp).state
    case Press(u, data, today, run, send) => HandleCallback(policy, isAlnum, st, u, data, today, run, send).state
  }

  /** The state after handling `events` in order, one at a time. */
  function Replay(policy: GatePolicy, isAlnum: char -> bool, st: State, events: seq<Event>): State
    decreases |events|
  {
    if |events| == 0 then st
    else Apply(policy, isAlnum, Replay(policy, isAlnum, st, events[..|events| - 1]), events[|events| - 1])
  }

  /** Whether handling `e` delivers a track. */
  predicate Served(policy: GatePolicy, isAlnum: char -> bool, st: State, e: Event) {
    e.Press? && HandleCallback(policy, isAlnum, st, e.user, e.data, e.today, e.run, e.send).reply.Delivered?
  }

  // ---------------------------------------------------------------------------
  // Search results and buttons
  // ---------------------------------------------------------------------------

  /** A press whose data names a cached position goes straight to the quota
      gate, the download and the send, on the track cached there. */
  lemma PressRunsFetch(policy: GatePolicy, isAlnum: char -> bool, st: State, user: UserId,
                       data: string, i: nat, today: Date, run: Extraction, send: Sending)
    requires ParseCallback(data) == Pick(i)
    requires user in st.results && i < |st.results[user]|
    ensures HandleCallback(policy, isAlnum, st, user, data, today, run, send)
            == Fetch(policy, isAlnum, st, user, st.results[user][i], today, run, send)
  {
    assert Resolve(st.results, user, i) == Selected(st.results[user][i]);
  }

  /** Pressing button `i` of a keyboard for the cached list goes on to the
      quota gate with track `i`. */
  lemma ButtonPressRunsFetch(policy: GatePolicy, isAlnum: char -> bool, st: State, user: UserId,
                             i: nat, today: Date, run: Extraction, send: Sending)
    requires user in st.results && i < |st.results[user]|
    ensures HandleCallback(policy, isAlnum, st, user, DownloadData(i), today, run, send)
            == Fetch(policy, isAlnum, st, user, st.results[user][i], today, run, send)
  {
    PressRunsFetch(policy, isAlnum, st, user, DownloadData(i), i, today, run, send);
  }

  /** Button `i`, admitted, with the artifact found and the audio sent,
      delivers track `i` and records it. */
  lemma AdmittedButtonDelivers(policy: GatePolicy, isAlnum: char -> bool, st: State, user: UserId,
                               i: nat, today: Date, run: Extraction, send: Sending)
    requires user in st.results && i < |st.results[user]|
    requires Admits(policy, Lookup(st.users, user), today)
    requires DownloadAudio(isAlnum, st.results[user][i].title, run).Some? && send.Sent?
    ensures var track := st.results[user][i];
            HandleCallback(policy, isAlnum, st, user, DownloadData(i), today, run, send)
              == Step(Deliver(st, user, track, today), Delivered(track, DownloadAudio(isAlnum, track.title, run).value))
  {
    ButtonPressRunsFetch(policy, isAlnum, st, user, i, today, run, send);
  }

  /** Such a press, admitted by the gate, with the artifact found and the
      audio sent, delivers the cached track and records it. */
  lemma AdmittedPressDelivers(policy: GatePolicy, isAlnum: char -> bool, st: State, user: UserId,
                              data: string, i: nat, today: Date, run: Extraction, send: Sending)
    requires ParseCallback(data) == Pick(i)
    requires user in st.results && i < |st.results[user]|
    requires Admits(policy, Lookup(st.users, user), today)
    requires DownloadAudio(isAlnum, st.results[user][i].title, run).Some? && send.Sent?
    ensures var track := st.results[user][i];
            HandleCallback(policy, isAlnum, st, user, data, today, run, send)
              == Step(Deliver(st, user, track, today), Delivered(track, DownloadAudio(isAlnum, track.title, run).value))
  {
    PressRunsFetch(policy, isAlnum, st, user, data, i, today, run, send);
  }

  /** Such a press refused by the gate changes nothing. */
  lemma RefusedPress(policy: GatePolicy, isAlnum: char -> bool, st: State, user: UserId,
                     data: string, i: nat, today: Date, run: Extraction, send: Sending)
    requires ParseCallback(data) == Pick(i)
    requires user in st.results && i < |st.results[user]|
    requires !Admits(policy, Lookup(st.users, user), today)
    ensures HandleCallback(policy, isAlnum, st, user, data, today, run, send) == Step(st, DailyLimitReached)
  {
    PressRunsFetch(policy, isAlnum, st, user, data, i, today, run, send);
  }

  /** Pressing button `i` of the keyboard built for the list cached for the
      user selects the `i`-th track of that list. */
  lemma CachedButtonSelects(policy: GatePolicy, isAlnum: char -> bool, st: State, user: UserId,
                            found: seq<Candidate>, backLabel: string,
                            i: nat, today: Date, run: Extraction, send: Sending)
    requires user in st.results && st.results[user] == found && i < |found|
    ensures var c := HandleCallback(policy, isAlnum, st, user, ResultsKeyboard(found, backLabel)[i].data, today, run, send);
            && c.reply != ResultsExpired && c.reply != WrongTrack && c.reply != HandlerRaised
            && (c.reply.Delivered? <==>
                  Admits(policy, Lookup(st.users, user), today)
                  && DownloadAudio(isAlnum, found[i].title, run).Some? && send.Sent?)
            && (c.reply.Delivered? ==> c.reply.track == found[i])
  {
    var data := ResultsKeyboard(found, backLabel)[i].data;
    PressRunsFetch(policy, isAlnum, st, user, data, i, today, run, send);
  }

  /** Pressing button `i` of the keyboard shown after a search selects the
      `i`-th result shown: the press is never answered as expired, out of
      range or raised, and the track is delivered exactly when the quota, the
      download and the send all allow it. */
  lemma ShownButtonSelectsShownTrack(policy: GatePolicy, isAlnum: char -> bool, st: State, user: UserId,
                                     text: Option<string>, resp: Option<Response>, backLabel: string,
                                     i: nat, today: Date, run: Extraction, send: Sending)
    requires HandleMessage(st, user, text, resp).reply.ShowResults?
    requires i < |HandleMessage(st, user, text, resp).reply.found|
    ensures var m := HandleMessage(st, user, text, resp);
            var found := m.reply.found;
            var c := HandleCallback(policy, isAlnum, m.state, user, ResultsKeyboard(found, backLabel)[i].data, today, run, send);
            && c.reply != ResultsExpired && c.reply != WrongTrack && c.reply != HandlerRaised
            && (c.reply.Delivered? <==>
                  Admits(policy, Lookup(m.state.users, user), today)
                  && DownloadAudio(isAlnum, found[i].title, run).Some? && send.Sent?)
            && (c.reply.Delivered? ==> c.reply.track == found[i])
  {
    var m := HandleMessage(st, user, text, resp);
    CachedButtonSelects(policy, isAlnum, m.state, user, m.reply.found, backLabel, i, today, run, send);
  }

  /** After a search that showed results, a selection resolves against
      exactly that list, whatever an earlier search cached: an index inside it
      gives its track, one past its end is out of range, and a negative one
      counts from the end until it raises. */
  lemma ResolveAfterSearch(st: State, user: UserId, text: Option<string>, resp: Option<Response>, i: int)
    requires HandleMessage(st, user, text, resp).reply.ShowResults?
    ensures var m := HandleMessage(st, user, text, resp);
            var found := m.reply.found;
            var s := Resolve(m.state.results, user, i);
            && (0 <= i < |found| ==> s == Selected(found[i]))
            && (i >= |found| <==> s == OutOfRange)
            && (-|found| <= i < 0 ==> s == Selected(found[|found| + i]))
            && (i < -|found| <==> s == IndexRaised)
            && s != Expired
  {
  }

  /** Line 1344 checks only the upper bound, so the callback `download:-1`
      (which no button carries, but a client can send) selects the last
      result, as Python's negative indexing does. */
  lemma NegativeIndexSelectsLast(results: map<UserId, seq<Candidate>>, user: UserId)
    requires user in results && |results[user]| > 0
    ensures ParseCallback("download:-1") == Pick(-1)
    ensures Resolve(results, user, -1) == Selected(results[user][|results[user]| - 1])
  {
    var data := "download:-1";
    assert data[..|DownloadPrefix|] == DownloadPrefix;
    assert data[|DownloadPrefix|..] == "-1";
    DownloadFields(data);
    Text.SplitSeparatorFree("-1", ':');
    MinusOneParses();
  }

  lemma MinusOneParses()
    ensures Text.ParseInt("-1") == Some(-1)
  {
    assert "-1"[1..] == "1";
    assert Text.IsNumeral("1");
    assert "1"[..0] == [];
    assert Text.NumeralValue("1") == 1;
  }

  // ---------------------------------------------------------------------------
  // The daily counter
  // ---------------------------------------------------------------------------

  /** A row within the free allowance: premium, or counted at most five. */
  predicate WithinFreeLimit(rec: UserRecord) {
    rec.isPremium || rec.dailyDownloads <= FreeDailyLimit
  }

  predicate AllWithinFreeLimit(users: map<UserId, UserRecord>) {
    forall u :: u in users ==> WithinFreeLimit(users[u])
  }

  /** A delivery to an admitted free user counts at most the fifth download
      of the day, under either reading of the counter. */
  lemma {:induction false} AdmittedDeliveryStaysWithinLimit(policy: GatePolicy, rec: UserRecord, today: Date)
    requires !rec.isPremium && Admits(policy, Some(rec), today)
    requires RecordDownload(rec, today).Some?
    ensures !RecordDownload(rec, today).value.isPremium
    ensures RecordDownload(rec, today).value.dailyDownloads <= FreeDailyLimit
  {
    assert DownloadsToday(rec, today) < FreeDailyLimit by {
      if policy == StoredCounter {
        assert rec.dailyDownloads < FreeDailyLimit;
      }
    }
  }

  /** Every event keeps every free user's counter at or below the limit. */
  lemma {:induction false} ApplyKeepsFreeLimit(policy: GatePolicy, isAlnum: char -> bool, st: State, e: Event)
    requires AllWithinFreeLimit(st.users)
    ensures AllWithinFreeLimit(Apply(policy, isAlnum, st, e).users)
  {
    var st' := Apply(policy, isAlnum, st, e);
    if e.Press? {
      var c := HandleCallback(policy, isAlnum, st, e.user, e.data, e.today, e.run, e.send);
      if c.reply.Delivered? && e.user in st.users && RecordDownload(st.users[e.user], e.today).Some? {
        var rec := st.users[e.user];
        if !rec.isPremium {
          AdmittedDeliveryStaysWithinLimit(policy, rec, e.today);
        }
        forall u | u in st'.users ensures WithinFreeLimit(st'.users[u]) {
          if u != e.user {
            assert SameEntry(st.users, st'.users, u);
          }
        }
      }
    } else {
      forall u | u in st'.users ensures WithinFreeLimit(st'.users[u]) {
        if u != e.user {
          assert SameEntry(st.users, st'.users, u);
        }
      }
    }
  }

  /** Over any sequence of events no free user is ever counted more than the
      free limit, under either reading of the counter. */
  lemma {:induction false} FreeLimitInvariant(policy: GatePolicy, isAlnum: char -> bool, st: State, events: seq<Event>)
    requires AllWithinFreeLimit(st.users)
    ensures AllWithinFreeLimit(Replay(policy, isAlnum, st, events).users)
    decreases |events|
  {
    if |events| > 0 {
      FreeLimitInvariant(policy, isAlnum, st, events[..|events| - 1]);
      ApplyKeepsFreeLimit(policy, isAlnum, Replay(policy, isAlnum, st, events[..|events| - 1]), events[|events| - 1]);
    }
  }

  /** A sixth delivery of the day leaves the figure of line 1087 at −1. */
  lemma SixthDownloadShowsMinusOne(st: State, user: UserId, track: Candidate, today: Date)
    requires user in st.users && st.users[user].lastDownloadDate == Some(today)
    requires st.users[user].dailyDownloads == FreeDailyLimit
    requires st.users[user].totalDownloads < PgIntMax
    ensures var r := Deliver(st, user, track, today);
            user in r.users && RemainingToday(r.users[user]) == -1
  {
    var rec := st.users[user];
    assert RecordDownload(rec, today).Some? && RecordDownload(rec, today).value.dailyDownloads == FreeDailyLimit + 1;
  }

  /** Lines 1087 and 1352-1357 do not cap premium users: one counted five
      times today is still served, and the statistics screen then shows a
      negative number of downloads left. */
  lemma PremiumGoesPastFreeLimit(isAlnum: char -> bool, st: State, user: UserId, i: nat,
                                 today: Date, run: Extraction, send: Sending)
    requires user in st.users && st.users[user].isPremium
    requires st.users[user].lastDownloadDate == Some(today)
    requires st.users[user].dailyDownloads == FreeDailyLimit
    requires st.users[user].totalDownloads < PgIntMax
    requires user in st.results && i < |st.results[user]|
    requires DownloadAudio(isAlnum, st.results[user][i].title, run).Some? && send.Sent?
    ensures var c := HandleCallback(StoredCounter, isAlnum, st, user, DownloadData(i), today, run, send);
            && c.reply.Delivered?
            && user in c.state.users && RemainingToday(c.state.users[user]) == -1
  {
    assert Admits(StoredCounter, Lookup(st.users, user), today);
    AdmittedButtonDelivers(StoredCounter, isAlnum, st, user, i, today, run, send);
    SixthDownloadShowsMinusOne(st, user, st.results[user][i], today);
  }

  // ---------------------------------------------------------------------------
  // The lockout of the source's gate, and the corrected gate
  // ---------------------------------------------------------------------------

  /** A free user whose stored counter has reached the limit. */
  predicate LockedOut(rec: UserRecord) {
    !rec.isPremium && rec.dailyDownloads >= FreeDailyLimit
  }

  /** As written, a locked-out user is refused before the download starts,
      on every day, and nothing about the bot changes. */
  lemma {:induction false} StoredCounterRefuses(isAlnum: char -> bool, st: State, e: Event)
    requires e.Press? && e.user in st.users && LockedOut(st.users[e.user])
    ensures !Served(StoredCounter, isAlnum, st, e)
    ensures Apply(StoredCounter, isAlnum, st, e) == st
  {
  }

  /** As written, the lockout is permanent: whatever happens afterwards, on
      whatever days, the user's row never changes and their next press is
      never served. Only the post-delivery UPDATE resets the counter, and it
      never runs for them. */
  lemma {:induction false} StoredCounterLocksOutForever(isAlnum: char -> bool, st: State, user: UserId, events: seq<Event>)
    requires user in st.users && LockedOut(st.users[user])
    ensures var end := Replay(StoredCounter, isAlnum, st, events);
            && user in end.users && end.users[user] == st.users[user]
            && forall data, today, run, send ::
                 !Served(StoredCounter, isAlnum, end, Press(user, data, today, run, send))
    decreases |events|
  {
    var end := Replay(StoredCounter, isAlnum, st, events);
    if |events| > 0 {
      var before := Replay(StoredCounter, isAlnum, st, events[..|events| - 1]);
      var e := events[|events| - 1];
      StoredCounterLocksOutForever(isAlnum, st, user, events[..|events| - 1]);
      assert end == Apply(StoredCounter, isAlnum, before, e);
      if e.user == user {
        if e.Press? {
          StoredCounterRefuses(isAlnum, before, e);
        }
      } else {
        if e.Press? {
          var c := HandleCallback(StoredCounter, isAlnum, before, e.user, e.data, e.today, e.run, e.send);
          if c.reply.Delivered? {
            assert SameEntry(before.users, end.users, user);
          }
        } else {
          assert SameEntry(before.users, end.users, user);
        }
      }
    }
    forall data, today, run, send
      ensures !Served(StoredCounter, isAlnum, end, Press(user, data, today, run, send))
    {
      StoredCounterRefuses(isAlnum, end, Press(user, data, today, run, send));
    }
  }

  /** Corrected, the counter of an earlier day does not count: a free user
      refused yesterday is served on the first press of a new day, and the
      UPDATE restarts their counter at one. */
  lemma NewDayReopensCorrectedGate(isAlnum: char -> bool, st: State, user: UserId, i: nat,
                                   today: Date, run: Extraction, send: Sending)
    requires user in st.users && !st.users[user].isPremium
    requires st.users[user].lastDownloadDate != Some(today)
    requires st.users[user].totalDownloads < PgIntMax
    requires user in st.results && i < |st.results[user]|
    requires DownloadAudio(isAlnum, st.results[user][i].title, run).Some? && send.Sent?
    ensures var c := HandleCallback(CounterOfToday, isAlnum, st, user, DownloadData(i), today, run, send);
            && c.reply.Delivered? && c.reply.track == st.results[user][i]
            && user in c.state.users && c.state.users[user].dailyDownloads == 1
  {
    assert Admits(CounterOfToday, Lookup(st.users, user), today);
    AdmittedButtonDelivers(CounterOfToday, isAlnum, st, user, i, today, run, send);
    NewDayRestartsCounter(st.users[user], today);
  }

  /** A free user whose five downloads were all made on day 0 presses a
      result button on day 1: the source's gate refuses, the corrected one
      delivers. */
  lemma DayAfterFullDay(isAlnum: char -> bool, st: State, user: UserId, i: nat, run: Extraction)
    requires user in st.users && st.users[user] == UserRecord(false, FreeDailyLimit, FreeDailyLimit, Some(0))
    requires user in st.results && i < |st.results[user]|
    requires DownloadAudio(isAlnum, st.results[user][i].title, run).Some?
    ensures HandleCallback(StoredCounter, isAlnum, st, user, DownloadData(i), 1, run, Sent).reply == DailyLimitReached
    ensures HandleCallback(CounterOfToday, isAlnum, st, user, DownloadData(i), 1, run, Sent).reply.Delivered?
  {
    ButtonPressRunsFetch(StoredCounter, isAlnum, st, user, i, 1, run, Sent);
    NewDayReopensCorrectedGate(isAlnum, st, user, i, 1, run, Sent);
  }

  /** The input that shows the lockout: user 7, who made five downloads on
      day 0, presses result button `i` on day 1. As written they are told the
      daily limit is reached; corrected, the track is delivered. */
  lemma QuotaLockoutWitness(isAlnum: char -> bool, found: seq<Candidate>, i: nat, run: Extraction)
    requires i < |found| && DownloadAudio(isAlnum, found[i].title, run).Some?
    ensures var st := State(map[7 := found], map[7 := UserRecord(false, 5, 5, Some(0))], [], 5);
            && HandleCallback(StoredCounter, isAlnum, st, 7, DownloadData(i), 1, run, Sent).reply == DailyLimitReached
            && HandleCallback(CounterOfToday, isAlnum, st, 7, DownloadData(i), 1, run, Sent).reply.Delivered?
  {
    DayAfterFullDay(isAlnum, State(map[7 := found], map[7 := UserRecord(false, 5, 5, Some(0))], [], 5), 7, i, run);
  }
}

=== FILE: quota.dfy ===
/** The daily download quota: the gate in `handle_callback` (lines 1352-1357),
    the counter UPDATE that runs after a successful send (lines 1381-1390), and
    the "available today" figure of the statistics screen (line 1087). */
module Quota {
  import opened Wrappers

  type UserId = int

  /** A calendar day on the database server's clock (`CURRENT_DATE`). */
  type Date = int

  const FreeDailyLimit := 5

  /** Declared next to the free limit (line 49) but never consulted. */
  const PremiumDailyLimit := 100

  /** The largest value of a PostgreSQL INTEGER column. */
  const PgIntMax := 0x7fff_ffff

  /** The quota columns of one `users` row (lines 118-124). */
  datatype UserRecord = UserRecord(
    isPremium: bool,
    totalDownloads: int,
    dailyDownloads: int,
    lastDownloadDate: Option<Date>)

  /** A freshly inserted row: the column defaults. */
  const NewUser := UserRecord(false, 0, 0, None)

  /** How the gate reads the daily counter. `StoredCounter` is the source: the
      stored value, whatever day it was written. `CounterOfToday` is the
      corrected reading, which counts only downloads made today. */
  datatype GatePolicy = StoredCounter | CounterOfToday

  /** The downloads already counted for `today`: the stored counter if it was
      last written today, otherwise none. The UPDATE counts exactly this way. */
  function DownloadsToday(rec: UserRecord, today: Date): int {
    if rec.lastDownloadDate == Some(today) then rec.dailyDownloads else 0
  }

  /** Whether a download may start. `rec` is None when `get_user` found no row. */
  function Admits(policy: GatePolicy, rec: Option<UserRecord>, today: Date): (ok: bool)
    ensures rec.None? || rec.value.isPremium ==> ok
    ensures policy == StoredCounter ==>
              (ok <==> rec.None? || rec.value.isPremium || rec.value.dailyDownloads < FreeDailyLimit)
    ensures policy == CounterOfToday ==>
              (ok <==> rec.None? || rec.value.isPremium || DownloadsToday(rec.value, today) < FreeDailyLimit)
  {
    match rec
    case None => true
    case Some(r) =>
      r.isPremium ||
      (match policy
       case StoredCounter => r.dailyDownloads
       case CounterOfToday => DownloadsToday(r, today)) < FreeDailyLimit
  }

  /** The source's gate does not look at the date: the same row gets the same
      answer on every day. */
  lemma StoredGateIgnoresDate(rec: Option<UserRecord>, day1: Date, day2: Date)
    ensures Admits(StoredCounter, rec, day1) == Admits(StoredCounter, rec, day2)
  {
  }

  /** The two readings agree whenever the stored counter was written today. */
  lemma GatesAgreeOnSameDay(rec: UserRecord, today: Date)
    requires rec.lastDownloadDate == Some(today)
    ensures Admits(StoredCounter, Some(rec), today) == Admits(CounterOfToday, Some(rec), today)
  {
  }

  /** The UPDATE of lines 1381-1390. None when the statement fails because a
      column would leave the INTEGER range; the caller swallows that error and
      the row stays as it was. */
  function RecordDownload(rec: UserRecord, today: Date): (r: Option<UserRecord>)
    ensures r.None? <==> rec.totalDownloads >= PgIntMax || DownloadsToday(rec, today) >= PgIntMax
    ensures r.Some? ==> r.value.totalDownloads == rec.totalDownloads + 1
    ensures r.Some? ==> r.value.dailyDownloads == DownloadsToday(rec, today) + 1
    ensures r.Some? ==> r.value.lastDownloadDate == Some(today)
    ensures r.Some? ==> r.value.isPremium == rec.isPremium
    ensures r.Some? ==> DownloadsToday(r.value, today) == DownloadsToday(rec, today) + 1
  {
    var total := rec.totalDownloads + 1;
    var daily := if rec.lastDownloadDate == Some(today) then rec.dailyDownloads + 1 else 1;
    if total > PgIntMax || daily > PgIntMax then None
    else Some(rec.(totalDownloads := total, dailyDownloads := daily, lastDownloadDate := Some(today)))
  }

  /** The first download of a new day restarts the daily counter at 1. */
  lemma NewDayRestartsCounter(rec: UserRecord, today: Date)
    requires rec.lastDownloadDate != Some(today)
    requires rec.totalDownloads < PgIntMax
    ensures RecordDownload(rec, today).Some?
    ensures RecordDownload(rec, today).value.dailyDownloads == 1
  {
  }

  /** Line 1087: the free limit minus the stored counter, for any user. */
  function RemainingToday(rec: UserRecord): (n: int)
    ensures n < 0 <==> rec.dailyDownloads > FreeDailyLimit
  {
    FreeDailyLimit - rec.dailyDownloads
  }

  /** For a free user the figure shown is positive exactly when the source's
      gate lets a download through, on any day. */
  lemma RemainingMatchesGate(rec: UserRecord, today: Date)
    requires !rec.isPremium
    ensures RemainingToday(rec) > 0 <==> Admits(StoredCounter, Some(rec), today)
  {
  }
}

=== FILE: search.dfy ===
/** `MusicDownloader.search_music`: the provider's raw response becomes an
    ordered list of candidates. The provider call itself is opaque; the model
    starts from what it returned. */
module Search {
  import opened Wrappers
  import opened Duration

  /** One provider entry. A None field is a key the entry dictionary lacks. */
  datatype RawEntry = RawEntry(
    title: Option<string>,
    webpageUrl: Option<string>,
    duration: Option<Number>,
    uploader: Option<string>,
    viewCount: Option<int>)

  /** The provider's answer. `entries` is None when the key is missing (or
      null, which makes the slice raise and is caught the same way). An entry
      is None when it is falsy: Python `None` or an empty dictionary. */
  datatype Response = Response(entries: Option<seq<Option<RawEntry>>>)

  /** One search result as the rest of the bot sees it. */
  datatype Candidate = Candidate(
    title: string,
    url: string,
    duration: string,
    uploader: string,
    viewCount: int)

  const UnknownText := "Unknown"

  /** Lines 236-243: absent keys get their defaults; the duration is rendered. */
  function ToCandidate(e: RawEntry): (c: Candidate)
    ensures c.title == (if e.title.Some? then e.title.value else UnknownText)
    ensures c.url == (if e.webpageUrl.Some? then e.webpageUrl.value else "")
    ensures c.uploader == (if e.uploader.Some? then e.uploader.value else UnknownText)
    ensures c.viewCount == (if e.viewCount.Some? then e.viewCount.value else 0)
    ensures c.duration == Unknown <==> !IsKnown(e.duration)
    ensures c.duration == FormatDuration(e.duration)
  {
    Candidate(
      e.title.GetOr(UnknownText),
      e.webpageUrl.GetOr(""),
      FormatDuration(e.duration),
      e.uploader.GetOr(UnknownText),
      e.viewCount.GetOr(0))
  }

  /** The duration shown for a candidate reads back to the provider's whole
      number of seconds, and to nothing when the provider gave none. */
  lemma CandidateDurationReadsBack(e: RawEntry)
    ensures ParseClock(ToCandidate(e).duration) == if IsKnown(e.duration) then Some(Truncate(e.duration.value)) else None
  {
    DurationRoundTrip(e.duration);
  }

  /** Python's `s[:n]`, including a negative `n`, which drops from the end. */
  function SlicePrefix<T>(s: seq<T>, n: int): (r: seq<T>)
    ensures |r| <= |s| && r == s[..|r|]
    ensures n >= 0 ==> |r| == if n <= |s| then n else |s|
    ensures n < 0 ==> |r| == if -n <= |s| then |s| + n else 0
  {
    if n >= 0 then (if n <= |s| then s[..n] else s)
    else (if -n <= |s| then s[..|s| + n] else [])
  }

  /** The number of truthy entries. */
  function CountPresent(es: seq<Option<RawEntry>>): nat
    decreases |es|
  {
    if |es| == 0 then 0
    else CountPresent(es[..|es| - 1]) + (if es[|es| - 1].Some? then 1 else 0)
  }

  lemma {:induction false} CountPresentAppend(a: seq<Option<RawEntry>>, b: seq<Option<RawEntry>>)
    ensures CountPresent(a + b) == CountPresent(a) + CountPresent(b)
    decreases |b|
  {
    if |b| > 0 {
      assert (a + b)[..|a + b| - 1] == a + b[..|b| - 1];
      assert (a + b)[|a + b| - 1] == b[|b| - 1];
      CountPresentAppend(a, b[..|b| - 1]);
    } else {
      assert a + b == a;
    }
  }

  /** The loop of lines 234-243: each truthy entry appends one candidate, a
      falsy one appends nothing. */
  function Assemble(es: seq<Option<RawEntry>>): (r: seq<Candidate>)
    ensures |r| == CountPresent(es) <= |es|
    decreases |es|
  {
    if |es| == 0 then []
    else
      var last := es[|es| - 1];
      Assemble(es[..|es| - 1]) + (if last.Some? then [ToCandidate(last.value)] else [])
  }

  /** Appending an entry keeps the candidates already assembled. */
  lemma AssembleExtendsInit(es: seq<Option<RawEntry>>, k: nat)
    requires |es| > 0 && k < |Assemble(es[..|es| - 1])|
    ensures k < |Assemble(es)| && Assemble(es)[k] == Assemble(es[..|es| - 1])[k]
  {
  }

  /** A truthy last entry becomes the last candidate. */
  lemma AssembleLastEntry(es: seq<Option<RawEntry>>)
    requires |es| > 0 && es[|es| - 1].Some?
    ensures CountPresent(es[..|es| - 1]) < |Assemble(es)|
    ensures Assemble(es)[CountPresent(es[..|es| - 1])] == ToCandidate(es[|es| - 1].value)
  {
  }

  /** The truthy entry at position `i` becomes the candidate at the position
      given by the number of truthy entries before it: with the count above,
      order is kept and nothing is duplicated or dropped. */
  lemma {:induction false} AssembleKeepsPosition(es: seq<Option<RawEntry>>, i: nat)
    requires i < |es| && es[i].Some?
    ensures CountPresent(es[..i]) < |Assemble(es)|
    ensures Assemble(es)[CountPresent(es[..i])] == ToCandidate(es[i].value)
    decreases |es|
  {
    var init := es[..|es| - 1];
    if i < |es| - 1 {
      assert init[..i] == es[..i] && init[i] == es[i];
      AssembleKeepsPosition(init, i);
      AssembleExtendsInit(es, CountPresent(es[..i]));
    } else {
      assert es[..i] == init;
      AssembleLastEntry(es);
    }
  }

  /** Two truthy entries keep their relative order among the candidates. */
  lemma AssemblePreservesOrder(es: seq<Option<RawEntry>>, i: nat, j: nat)
    requires i < j < |es| && es[i].Some? && es[j].Some?
    ensures CountPresent(es[..i]) < CountPresent(es[..j])
  {
    assert es[..j] == es[..i] + [es[i]] + es[i + 1..j];
    CountPresentAppend(es[..i] + [es[i]], es[i + 1..j]);
    CountPresentAppend(es[..i], [es[i]]);
    assert [es[i]][..0] == [];
  }

  /** The raw entries `search_music` looks at: the first `maxResults` of them,
      or none when the response is missing or has no entry list. */
  function Window(resp: Option<Response>, maxResults: int): seq<Option<RawEntry>>
  {
    if resp.Some? && resp.value.entries.Some? then SlicePrefix(resp.value.entries.value, maxResults)
    else []
  }

  /** `search_music` (lines 223-248) from the provider's answer on. `resp` is
      None when the provider raised or returned nothing. */
  function SearchMusic(resp: Option<Response>, maxResults: int): (r: seq<Candidate>)
    ensures resp.None? || resp.value.entries.None? ==> r == []
    ensures maxResults >= 0 ==> |r| <= maxResults
    ensures resp.Some? && resp.value.entries.Some? ==> |r| <= |resp.value.entries.value|
    ensures var w := Window(resp, maxResults);
            && |r| == CountPresent(w)
            && forall i :: 0 <= i < |w| && w[i].Some? ==>
                 CountPresent(w[..i]) < |r| && r[CountPresent(w[..i])] == ToCandidate(w[i].value)
  {
    var w := Window(resp, maxResults);
    forall i | 0 <= i < |w| && w[i].Some?
      ensures CountPresent(w[..i]) < |Assemble(w)| && Assemble(w)[CountPresent(w[..i])] == ToCandidate(w[i].value)
    {
      AssembleKeepsPosition(w, i);
    }
    Assemble(w)
  }
}

=== FILE: text.dfy ===
/** String helpers the bot relies on from Python's `str`: `startswith`,
    `endswith`, `split`, `str(int)` / `f"{n:02d}"` rendering and `int(str)`
    parsing, each with the round trip that ties rendering to parsing. */
module Text {
  import opened Wrappers

  /** Python's `s.startswith(prefix)`. */
  predicate StartsWith(s: string, prefix: string) {
    |prefix| <= |s| && s[..|prefix|] == prefix
  }

  /** Python's `s.endswith(suffix)`. */
  predicate EndsWith(s: string, suffix: string) {
    |suffix| <= |s| && s[|s| - |suffix|..] == suffix
  }

  // ---------------------------------------------------------------------------
  // Decimal numerals
  // ---------------------------------------------------------------------------

  predicate IsDigit(c: char) {
    '0' <= c <= '9'
  }

  predicate AllDigits(s: string) {
    forall i :: 0 <= i < |s| ==> IsDigit(s[i])
  }

  /** A non-empty run of ASCII digits. */
  predicate IsNumeral(s: string) {
    |s| > 0 && AllDigits(s)
  }

  function DigitChar(d: nat): (c: char)
    requires d < 10
    ensures IsDigit(c)
  {
    (48 + d) as char
  }

  function DigitValue(c: char): (d: nat)
    requires IsDigit(c)
    ensures d < 10
  {
    c as int - 48
  }

  /** The value of a run of digits, most significant first (0 for the empty run). */
  function NumeralValue(s: string): nat
    requires AllDigits(s)
  {
    if |s| == 0 then 0 else NumeralValue(s[..|s| - 1]) * 10 + DigitValue(s[|s| - 1])
  }

  /** Python's `str(n)` for a non-negative integer: decimal, no redundant
      leading zero. */
  function NatToString(n: nat): (s: string)
    ensures IsNumeral(s)
    ensures s[0] == '0' <==> n == 0
    ensures n < 10 <==> |s| == 1
    decreases n
  {
    if n < 10 then [DigitChar(n)] else NatToString(n / 10) + [DigitChar(n % 10)]
  }

  lemma {:induction false} NatToStringRoundTrip(n: nat)
    ensures NumeralValue(NatToString(n)) == n
    decreases n
  {
    var s := NatToString(n);
    if n < 10 {
      assert s[..|s| - 1] == [];
    } else {
      assert s[..|s| - 1] == NatToString(n / 10);
      NatToStringRoundTrip(n / 10);
    }
  }

  /** Python's `f"{n:02d}"` for a non-negative integer: at least two digits,
      zero-padded on the left. */
  function Pad2(n: nat): (s: string)
    ensures IsNumeral(s) && NumeralValue(s) == n
    ensures n < 100 ==> |s| == 2
  {
    NatToStringRoundTrip(n);
    if n < 10 then
      var s := "0" + NatToString(n);
      assert s[..1] == "0";
      s
    else
      assert NatToString(n) == NatToString(n / 10) + [DigitChar(n % 10)];
      NatToString(n)
  }

  /** Python's `str(i)` for any integer: a minus sign for negatives, then the
      decimal digits without a redundant leading zero (so never `-0`);
      `int()` reads it back as `i`. */
  function IntToString(i: int): (s: string)
    ensures |s| > 0
    ensures forall k :: 0 <= k < |s| ==> IsDigit(s[k]) || s[k] == '-'
    ensures ParseInt(s) == Some(i)
    ensures |s| > 1 ==> s[0] != '0' && (s[0] == '-' ==> s[1] != '0')
  {
    if i < 0 then
      var s := "-" + NatToString(-i);
      assert s[1..] == NatToString(-i);
      NatToStringRoundTrip(-i);
      s
    else
      NatToStringRoundTrip(i);
      NatToString(i)
  }

  /** Python's `int(s)` restricted to an optional sign followed by ASCII digits;
      None stands for the ValueError that any other text raises. */
  function ParseInt(s: string): (r: Option<int>)
    ensures IsNumeral(s) ==> r == Some(NumeralValue(s))
    ensures |s| > 1 && s[0] == '-' && IsNumeral(s[1..]) ==> r == Some(-(NumeralValue(s[1..]) as int))
    ensures |s| > 1 && s[0] == '+' && IsNumeral(s[1..]) ==> r == Some(NumeralValue(s[1..]))
    ensures r.Some? ==> |s| > 0 && IsNumeral(if s[0] == '-' || s[0] == '+' then s[1..] else s)
  {
    if |s| > 0 && s[0] == '-' && IsNumeral(s[1..]) then Some(-(NumeralValue(s[1..]) as int))
    else if |s| > 0 && s[0] == '+' && IsNumeral(s[1..]) then Some(NumeralValue(s[1..]))
    else if IsNumeral(s) then Some(NumeralValue(s))
    else None
  }

  /** Digits contain no colon. */
  lemma DigitsHaveNoColon(s: string)
    requires AllDigits(s)
    ensures ':' !in s
  {
    forall k | 0 <= k < |s| ensures s[k] != ':' {
      assert IsDigit(s[k]);
    }
  }

  /** The decimal text of an integer contains no colon. */
  lemma IntTextHasNoColon(i: int)
    ensures ':' !in IntToString(i)
  {
    var s := IntToString(i);
    forall k | 0 <= k < |s| ensures s[k] != ':' {
      assert IsDigit(s[k]) || s[k] == '-';
    }
  }

  // ---------------------------------------------------------------------------
  // Splitting on a separator
  // ---------------------------------------------------------------------------

  /** The inverse of Split: the parts glued back with the separator between them. */
  function Join(parts: seq<string>, sep: char): string
  {
    if |parts| == 0 then ""
    else if |parts| == 1 then parts[0]
    else parts[0] + [sep] + Join(parts[1..], sep)
  }

  /** Python's `s.split(sep)` for a one-character separator: always at least one
      part, no part contains the separator, and joining the parts gives `s` back. */
  function Split(s: string, sep: char): (parts: seq<string>)
    ensures |parts| >= 1
    ensures forall i :: 0 <= i < |parts| ==> sep !in parts[i]
    ensures Join(parts, sep) == s
    decreases |s|
  {
    if |s| == 0 then [""]
    else
      var rest := Split(s[1..], sep);
      if s[0] == sep then
        assert s == [sep] + s[1..];
        [""] + rest
      else
        var parts := [[s[0]] + rest[0]] + rest[1..];
        assert parts[1..] == rest[1..];
        assert s == [s[0]] + s[1..];
        parts
  }

  lemma {:induction false} SplitSeparatorFree(a: string, sep: char)
    requires sep !in a
    ensures Split(a, sep) == [a]
    decreases |a|
  {
    if |a| > 0 {
      assert sep !in a[1..] by {
        forall k | 0 <= k < |a[1..]| ensures a[1..][k] != sep {
          assert a[1..][k] == a[k + 1];
        }
      }
      SplitSeparatorFree(a[1..], sep);
      assert [a[0]] + a[1..] == a;
    }
  }

  /** Splitting at the first separator: a separator-free head becomes the first part. */
  lemma {:induction false} SplitAtFirst(a: string, b: string, sep: char)
    requires sep !in a
    ensures Split(a + [sep] + b, sep) == [a] + Split(b, sep)
    decreases |a|
  {
    var s := a + [sep] + b;
    if |a| == 0 {
      assert s[1..] == b;
    } else {
      assert sep !in a[1..] by {
        forall k | 0 <= k < |a[1..]| ensures a[1..][k] != sep {
          assert a[1..][k] == a[k + 1];
        }
      }
      assert s[1..] == a[1..] + [sep] + b;
      SplitAtFirst(a[1..], b, sep);
      assert [a[0]] + a[1..] == a;
    }
  }

  /** Split undoes Join when no part contains the separator. */
  lemma {:induction false} SplitJoin(parts: seq<string>, sep: char)
    requires |parts| >= 1
    requires forall i :: 0 <= i < |parts| ==> sep !in parts[i]
    ensures Split(Join(parts, sep), sep) == parts
    decreases |parts|
  {
    if |parts| == 1 {
      SplitSeparatorFree(parts[0], sep);
    } else {
      SplitJoin(parts[1..], sep);
      SplitAtFirst(parts[0], Join(parts[1..], sep), sep);
      assert [parts[0]] + parts[1..] == parts;
    }
  }
}

=== FILE: wrappers.dfy ===
/** The optional-value datatype used throughout the model for Python's `None`
    and for dictionary keys that may be absent. */
module Wrappers {

  datatype Option<+T> = None | Some(value: T) {

    /** Returns the value in Some, or `default` for None (Python's `d.get(k, default)`). */
    function GetOr(default: T): T {
      match this
      case Some(v) => v
      case None => default
    }
  }
}
